=== FILE: README.md ===
# Space travel simulation, modelled in Dafny

A model of the hour-by-hour engine of the space travel simulation
(`src/space_travel`). The engine has these parts:

- **Calendar.** Each planet has its own calendar (`Time`): a day/month/year/hour
  counter whose day length is the planet's and whose months have 30 days.
- **People.** A person has a count of remaining life hours and a location tag.
- **Planets.** A planet owns a calendar and an ordered population.
- **Spaceships.** A ship has three independent flags (`inTransit`, `destroyed`,
  `arrived`), a countdown and a passenger list.
- **The tick.** Each hour the simulation runs these steps in order:
  1. every person of the master list ages one hour;
  2. every planet runs its hour;
  3. every ship not yet destroyed runs departure, its own hour, then arrival;
  4. the run is checked for completion.
- **Placement.** At start-up, people are placed on planets by their location tag.

The Java objects are shared by reference: a `Person` sits in the master list
and in a planet's or ship's list at the same time. The model gives every
person an id:

- `Store = map<PersonId, Person>` holds every person's current state.
- Every list is a `seq<PersonId>`.

This makes aliasing and every decrement of remaining life explicit. Everything
is a pure function over immutable datatypes.

The modules are:

| file | module | Java source |
|---|---|---|
| `wrappers.dfy` | `Wrappers` | `Option`, standing in for `null` |
| `decimal.dfy` | `Decimal` | `%d` and `%02d` of `String.format`, with a parser used only to prove the rendering lossless |
| `calendar.dfy` | `Calendar` | `Time.java` |
| `lookup.dfy` | `Lookup` | the `HashMap` tables built by `put` in list order, so a later duplicate name wins |
| `people.dfy` | `People` | `Person.java`, and the aging loops shared by planets, ships and the master list |
| `planet.dfy` | `Planets` | `Planet.java` |
| `spaceship.dfy` | `Spaceships` | `Spaceship.java` |
| `placement.dfy` | `Placement` | `FileReader.placePeople` |
| `simulation.dfy` | `Simulation` | `Simulation.java`: `Tick` is one pass of the `start` loop, `Run` is at most `fuel` passes |
| `tick_facts.dfy` | `TickFacts` | properties of whole ship turns, ticks and runs |

The loops of `updatePlanetStatus`, `updateShipStatus` and `start` are folds.
Each is defined by its state after the first `k` iterations
(`UpdatePlanetsUpTo`, `UpdateShipsUpTo`, `Run`).

The quirks of the code are modelled as written, and each has a lemma:

- **Multiple aging.** A person is aged by the global pass and again by their
  planet or ship.
  - A person listed twice in a list is aged twice.
  - On the departure tick a boarder loses three hours: one from the global pass
    (`Simulation.AgeEveryone`), one from the planet (`Planets.PassHourKeepsLiving`)
    and one aboard right after boarding (`TickFacts.BoardersAgeAboard`).
- **Both terminal flags can be set.** Arrival does not look at `destroyed`, so a
  ship can end up destroyed and arrived at once (`TickFacts.DestroyedAndArrived`).
- **No arrival guard on departure.** Departure does not look at `arrived`, so an
  arrived ship can leave again (`TickFacts.ArrivedShipDepartsAgain`).
- **Passenger list never cleared.** Arrival keeps the passenger list, so an
  arrived passenger is both aboard and a resident
  (`TickFacts.ArrivalLeavesPassengersAboard`).
- **Missing destination.** A ship heading for a planet that does not exist never
  arrives, and keeps the run open unless it is destroyed
  (`TickFacts.RunKeepsStranded`).
- **Landing twice.** Since departure ignores `arrived` and arrival keeps the
  passenger list, an arrived ship whose departure date shows again lands its old
  passengers a second time, so a person can be listed twice on a planet
  (`TickFacts.ReLandingListsTwice`).
- **A twice-listed person can stay dead on a planet.** Each listing is aged and
  judged separately: with two hours left the first listing survives and the
  second dies, so the planet keeps one listing of a person with no life left
  (`Planets.DuplicateResidentOutlivesDeath`).

Four more consequences of the code as written; the model follows the code:

- **Ann's remaining life.** Suppose Ann has 1000 hours left and is tagged
  `Falcon`, a ship that flies from Earth to Mars in 48 hours. At one hour of
  life per hour of travel she would reach Mars with about 951 hours left. The
  code leaves her 903:
  - Falcon departs on the very first tick, because Earth's date still reads
    `01.01.2400` after its first hour;
  - Ann loses 3 hours on that tick, ending it at 997;
  - she loses 2 hours on each of the 47 ticks that follow, and arrives on the last of them.

  Only the per-step aging facts are proved; the scenario itself is not.
- **Unknown location.** An initial location tag that names neither a ship nor a
  planet raises no error at load time: `placePeople` ignores the person, who
  stays in the master list and keeps aging.
- **Arrival.** Arrival neither clears the passenger list nor skips a destroyed
  ship.
- **Missing Spaceship members.** `Spaceship.java` does not declare
  `setOriginalPassengers`, `setActualArrivalDate` or their getters, which
  `Simulation.java` calls. The model adds the two fields as `Option`s that the
  simulation writes and nothing in the model reads.

## Model

| member | source | states |
|---|---|---|
| Calendar.NewTime | src/space_travel/Time.java:20-27 | a new time starts at hour 0 of the given day, month and year, with the given day length |
| Calendar.IncreaseHour | src/space_travel/Time.java:29-45 | on a valid time (day length at least 1, hour, day and month in range), `increaseHour` yields a valid time exactly one absolute hour later, with the same day length |
| Calendar.IncreaseHourRollsOver | src/space_travel/Time.java:30-44 | the four cases of `increaseHour`: the hour goes up; or the hour wraps to 0 and the day goes up; or day 30 wraps to day 1 of the next month; or month 12 wraps to month 1 of the next year |
| Calendar.IncreaseHourNAdvances | src/space_travel/Time.java:29-45 | `n` calls of `increaseHour` keep a time valid, keep its day length and move it exactly `n` absolute hours on |
| Calendar.AbsHourInjective | src/space_travel/Time.java:13-18 | two valid times with the same day length and the same absolute hour count are equal |
| Calendar.CarryDays | src/space_travel/Time.java:62-70 | for a day of at least 1 and a month in 1..12, the month-carrying loop of `addHours` leaves the day in 1..30 and the month in 1..12; with the month in 1..12 it keeps the total day count. A day of 0 or less is left as it is, since the loop only runs while the day exceeds 30 |
| Calendar.JavaDiv | src/space_travel/Time.java:56 | Java's `/` by a positive day length rounds toward zero: for a non-negative total it is the floor quotient, for a negative total the quotient times the divisor lies within one divisor above the total |
| Calendar.JavaRem | src/space_travel/Time.java:58 | Java's `%` by a positive day length satisfies `(a/b)*b + a%b == a` with the truncating quotient, is below the divisor in magnitude and takes the sign of the dividend: in `0 .. b-1` for a non-negative total, in `-(b-1) .. 0` for a negative one |
| Calendar.AddHours | src/space_travel/Time.java:53-71 | `addHours` keeps the day length and, with the month in 1..12, moves the absolute hour count by exactly `hours`, negative counts included; the new hour is in `0 .. dayLength-1` when the hour total is non-negative, and in `-(dayLength-1) .. 0` when it is negative, as Java's remainder leaves it |
| Calendar.AddHoursAdvances | src/space_travel/Time.java:53-71 | for `n >= 0`, `addHours(n)` keeps a valid time valid and moves it exactly `n` absolute hours on |
| Calendar.AddHoursIsRepeatedIncrease | src/space_travel/Time.java:29-71 | on a valid time, `addHours(n)` equals `n` calls of `increaseHour`, for every `n >= 0` |
| Calendar.AddZeroHours | src/space_travel/Time.java:53-71 | `addHours(0)` leaves a valid time unchanged |
| Calendar.GetDate | src/space_travel/Time.java:73-75 | with day and month in 0..99, the rendering is two digits of the day, a dot, two digits of the month, a dot, then the year as `%d` writes it |
| Calendar.GetDateRoundTrip | src/space_travel/Time.java:73-75 | the `dd.mm.yyyy` rendering of a valid time reads back as its day, month and year |
| Calendar.DateMatches | src/space_travel/Time.java:85-87 | on a valid time, `dateMatches` accepts a string iff it is in canonical `%02d.%02d.%d` form (two-digit day and month, no leading zero in the year) and reads back as this time's day, month and year; so `01.01.02400` is refused though it reads back as the date |
| Calendar.CanonicalDateIsRendering | src/space_travel/Time.java:73-75 | a canonical date string that reads back as a valid time's date is exactly that time's rendering |
| Calendar.DateMatchesCanonical | src/space_travel/Time.java:73-87 | on a valid time the rendering is the one canonical string that reads back as its date, in both directions |
| Calendar.SameDateIffSameDay | src/space_travel/Time.java:73-87 | two valid times render the same iff they fall on the same day, month and year |
| Calendar.UnpaddedNeverMatches | src/space_travel/Time.java:85-87 | a string whose second character is `.` (an unpadded day such as `1.1.2400`) never matches a valid time |
| Decimal.NatText | src/space_travel/Time.java:74 | `%d` of a non-negative number is a non-empty run of digits, one digit exactly for 0..9, starting with `0` only for the number 0 |
| Decimal.IntText | src/space_travel/Time.java:74 | `%d` writes at least one character; a leading minus sign exactly for negative numbers, digits after it; a single character exactly for 0..9; no leading zero and no `-0` |
| Decimal.NumeralIsNatText | src/space_travel/Time.java:74 | a digit run without a leading zero is exactly the `%d` text of its value |
| Decimal.CanonicalIntIsText | src/space_travel/Time.java:74 | every string in `%d` form reads back as an int whose `%d` text is that very string, so `%d` text and value determine each other |
| Decimal.Pad2Text | src/space_travel/Time.java:74 | `%02d` writes at least two characters; 0..99 become exactly the tens and the units digit; a number whose `%d` text is already two characters or longer is left unpadded |
| Decimal.NatTextRoundTrip | src/space_travel/Time.java:74 | the digits `%d` writes for a non-negative number have that number as their value |
| Decimal.IntTextRoundTrip | src/space_travel/Time.java:74 | `%d` of any int, minus sign included, reads back as that int |
| Lookup.LastIndexMap | src/space_travel/Simulation.java:34-39 | a table built by `put` in list order has exactly the listed names as keys, and each key leads to the last position holding that name |
| Lookup.UniqueNamesAreFound | src/space_travel/Simulation.java:34-39 | with unique names the table finds every element at its own position |
| People.PassHour | src/space_travel/Person.java:35-37 | `passHour` takes exactly one hour of remaining life, and name, age and location stay |
| People.SetLocation | src/space_travel/Person.java:89-91 | `setCurrentVehicle` changes only the location tag |
| People.PassHoursAges | src/space_travel/Person.java:35-46 | `k` calls of `passHour` take exactly `k` hours, and the person is still alive iff `k` is less than their remaining life |
| People.AgeAll | src/space_travel/Simulation.java:74-78 | aging a list ages every person once per listing and leaves everybody else as they were |
| People.AgeAndReap | src/space_travel/Planet.java:42-51 | the shared age-and-drop loop ages exactly as `AgeAll` does, and keeps a sub-multiset of the list |
| People.ReapRule | src/space_travel/Planet.java:42-51 | the loop keeps a listing iff the person had more hours left before the loop than their listings up to and including that one, in list order, repeated listings included |
| People.ReapKeepsLiving | src/space_travel/Planet.java:42-51 | with nobody listed twice, the loop keeps exactly the listed people alive after aging, in list order |
| People.ReapKeepsSurvivor | src/space_travel/Planet.java:43-47 | a person listed once with more than one hour left is kept |
| People.ReapKeepsNobody | src/space_travel/Spaceship.java:48-55 | when nobody listed has more than one hour left, nobody is kept, however often a person is listed |
| People.AgeAllOnce | src/space_travel/Simulation.java:74-78 | with nobody listed twice, each listed person loses exactly one hour |
| People.TagFiltersPartition | src/space_travel/Planet.java:73-79 | the two tag filters split a list: every element lands in exactly one part, and each part holds only matching or only non-matching tags |
| People.WithoutTagIdempotent | src/space_travel/Planet.java:69-83 | filtering out a tag twice equals filtering it once, and leaves nobody with that tag |
| People.Relocate | src/space_travel/Simulation.java:117-118 | retagging a list sets the tag of exactly the listed people and leaves everybody else unchanged |
| Planets.NewPlanet | src/space_travel/Planet.java:27-32 | a new planet has the given name and day length, a calendar at hour 0 of the given date with the same day length, and nobody on it |
| Planets.PassHour | src/space_travel/Planet.java:38-52 | the calendar moves exactly one `increaseHour` (one absolute hour on a valid time), each person ages once per listing, and the new population is a sub-multiset of the old one |
| Planets.PassHourReapRule | src/space_travel/Planet.java:42-51 | `passHour` keeps exactly the listings whose person had more hours left than their listings on the planet so far, this one included, in order |
| Planets.PassHourKeepsLiving | src/space_travel/Planet.java:42-51 | with nobody listed twice, each resident loses exactly one hour and the new population is exactly the living residents, in their old order |
| Planets.PassHourResidents | src/space_travel/Planet.java:42-51 | with nobody listed twice, the survivors are old residents, alive and still listed once, and nobody off the planet is touched |
| Planets.DuplicateResidentOutlivesDeath | src/space_travel/Planet.java:42-51 | a person listed twice with two hours left keeps one listing after `passHour` although they have no life left |
| Planets.PassHourKeepsSurvivor | src/space_travel/Planet.java:43-47 | a resident listed once with more than one hour left stays and loses exactly one hour |
| Planets.AddPerson | src/space_travel/Planet.java:59-61 | `addPerson` appends at the end, and calendar, name and day length stay |
| Planets.AddPeople | src/space_travel/Simulation.java:117-120 | the arrival loop of `addPerson` calls appends the list in order |
| Planets.Partition | src/space_travel/Planet.java:73-79 | the single pass puts the tagged residents and the others into two lists, each in population order |
| Planets.RemovePeople | src/space_travel/Planet.java:69-83 | `removePeople` returns exactly the tagged residents, in order, and keeps exactly the others, in order; together they are the old population |
| Planets.RemovePeopleTwice | src/space_travel/Planet.java:69-83 | a second `removePeople` with the same tag returns nobody and changes nothing |
| Spaceships.NewShip | src/space_travel/Spaceship.java:27-38 | a new ship has the full duration to go, no passengers and every flag down |
| Spaceships.AddPassenger | src/space_travel/Spaceship.java:40-42 | `addPassenger` appends at the end and changes nothing else |
| Spaceships.AddPassengers | src/space_travel/Simulation.java:104-106 | the boarding loop's `addPassenger` calls append the boarders to the passenger list in order, and nothing else about the ship changes |
| Spaceships.PassHour | src/space_travel/Spaceship.java:44-63 | `passHour` changes nothing unless in transit and not destroyed. Otherwise: one hour less to go; each passenger ages once per listing; the passenger list shrinks to a sub-multiset; the ship is destroyed iff it had passengers and now has none |
| Spaceships.PassHourReapRule | src/space_travel/Spaceship.java:48-55 | an active ship's `passHour` keeps exactly the listings whose passenger had more hours left than their listings aboard so far, this one included, in order |
| Spaceships.PassHourKeepsLiving | src/space_travel/Spaceship.java:46-57 | on an active ship with nobody listed twice, each passenger loses exactly one hour and the list is exactly the living, in order |
| Spaceships.PassHourKeepsSurvivor | src/space_travel/Spaceship.java:49-55 | a passenger listed once with more than one hour left stays aboard and loses exactly one hour |
| Spaceships.PassHourLosesEveryone | src/space_travel/Spaceship.java:56-61 | an active ship whose passengers all have at most one hour left loses them all and is destroyed |
| Spaceships.EmptyShipSurvives | src/space_travel/Spaceship.java:56-61 | a ship with nobody aboard is never destroyed by `passHour` |
| Spaceships.PassHourCompletesTravel | src/space_travel/Spaceship.java:44-67 | `isTravelComplete` after an active ship's `passHour` holds exactly when at most one hour was left; a ship not in transit is never complete |
| Spaceships.StartJourney | src/space_travel/Spaceship.java:69-71 | `startJourney` raises `inTransit` and resets neither the countdown nor any other field |
| Spaceships.EndJourney | src/space_travel/Spaceship.java:73-76 | `endJourney` lowers `inTransit`, raises `arrived`, and changes no other field: passengers, countdown, route and the recorded passenger list and arrival date stay |
| Placement.Resolve | src/space_travel/FileReader.java:117-156 | a tag naming a ship leads to the departure planet of the last ship of that name, if that planet exists, even when a planet has the same name. Any other tag leads to the planet of that name, if any. Among planets sharing a name the last one is chosen |
| Placement.ShipTable | src/space_travel/FileReader.java:121-123 | the ship table holds exactly the ship names, each leading to the last ship of that name |
| Placement.PlanetTable | src/space_travel/FileReader.java:125-127 | the planet table holds exactly the planet names, each leading to the last planet of that name |
| Placement.UniquePlanetNameResolves | src/space_travel/FileReader.java:148-152 | with unique planet names, a tag naming a planet and no ship places the person on that very planet |
| Placement.UniqueShipNameResolves | src/space_travel/FileReader.java:133-145 | with unique ship and planet names, a tag naming a ship places the person on that ship's departure planet |
| Placement.PlacePeople | src/space_travel/FileReader.java:116-158 | every planet ends with its old population followed by exactly the people whose tag resolves to it, in input order; names, day lengths and calendars stay |
| Placement.PlacedOnResolves | src/space_travel/FileReader.java:129-157 | whoever is placed on a planet has a tag resolving to that planet |
| Placement.PlacedAtMostOnce | src/space_travel/FileReader.java:129-157 | nobody is placed on two planets, and a person whose tag resolves nowhere is placed nowhere |
| Simulation.InitPlanetMap | src/space_travel/Simulation.java:34-39 | the planet map's keys are exactly the planet names, and each leads to the last planet of that name |
| Simulation.NewSimulation | src/space_travel/Simulation.java:25-32 | a new simulation keeps the given lists, builds the planet map, starts at hour 0 and is not complete |
| Simulation.AgeEveryone | src/space_travel/Simulation.java:74-78 | `updateAllPeopleLife` ages every person once per listing in the master list, people in no container included, and touches no planet or ship |
| Simulation.PlanetHour | src/space_travel/Simulation.java:81-83 | one planet's `passHour` moves its calendar one hour on, ages exactly its residents and leaves ships and other planets alone |
| Simulation.UpdatePlanetsUpTo | src/space_travel/Simulation.java:80-84 | after `k` turns, planets before `k` are one hour on with a sub-multiset of residents, the rest are untouched, and ships are untouched |
| Simulation.UpdatePlanetsAges | src/space_travel/Simulation.java:80-84 | after `k` turns each person has lost one hour per listing on the planets before `k`, summed over those planets |
| Simulation.UpdatePlanets | src/space_travel/Simulation.java:80-84 | `updatePlanetStatus` moves every calendar one hour on, only shrinks populations, leaves ships alone, and ages each person once per listing on any planet |
| Simulation.Board | src/space_travel/Simulation.java:102-109 | boarding moves the tagged residents of the departure planet, in order, to the end of the passenger list and puts the ship in transit. The other residents stay in order, and no other ship or planet changes |
| Simulation.ProcessDeparture | src/space_travel/Simulation.java:96-110 | departure changes nothing unless the ship is neither in transit nor destroyed, its departure planet exists and that planet's date matches. Then it boards |
| Simulation.ShipHour | src/space_travel/Simulation.java:90 | the ship's `passHour` inside the run changes only that ship and its passengers' life |
| Simulation.Land | src/space_travel/Simulation.java:116-123 | landing appends every passenger, in order, to the destination planet and retags exactly them with the planet's name. The ship is arrived and out of transit, keeps its passengers and does not change `destroyed` |
| Simulation.ProcessArrival | src/space_travel/Simulation.java:112-125 | arrival changes nothing unless travel is complete and the destination exists, whatever `destroyed` says. Then it lands |
| Simulation.ShipStep | src/space_travel/Simulation.java:87-93 | a ship's turn changes no other ship, moves no calendar, and leaves a destroyed ship and the whole state as they were |
| Simulation.ShipTurnKeepsInvariant | src/space_travel/Simulation.java:86-94 | each turn of `updateShipStatus` keeps the loop invariant: later ships untouched, destroyed ships untouched, calendars still |
| Simulation.UpdateShipsUpTo | src/space_travel/Simulation.java:86-94 | after `i` turns the loop invariant holds |
| Simulation.UpdateShips | src/space_travel/Simulation.java:86-94 | `updateShipStatus` moves no calendar and leaves every destroyed ship as it was |
| Simulation.CheckComplete | src/space_travel/Simulation.java:127-136 | the run is complete iff every ship is destroyed or arrived, and nothing else changes |
| Simulation.Tick | src/space_travel/Simulation.java:42-53 | a tick keeps the state well formed: names, ages, routes and the planet map are unchanged, and terminal flags are never lowered. The hour counter goes up by one, and the run is complete iff every ship is terminal |
| Simulation.TickMovesClocks | src/space_travel/Simulation.java:80-84 | a tick moves each planet's calendar exactly one `increaseHour` |
| Simulation.TickKeepsDestroyed | src/space_travel/Simulation.java:86-94 | a tick leaves a destroyed ship exactly as it is |
| Simulation.Run | src/space_travel/Simulation.java:41-53 | the loop after at most `fuel` turns has counted at most `fuel` hours, and stops early only when complete |
| TickFacts.NoShipsCompleteAfterOneTick | src/space_travel/Simulation.java:127-136 | without ships the run is complete after its first tick, and later turns change nothing |
| TickFacts.TickKeepsStranded | src/space_travel/Simulation.java:112-125 | a ship in transit towards a planet missing from the map stays in transit and unarrived through a tick, and the tick reports completion only if that ship is destroyed |
| TickFacts.RunKeepsStranded | src/space_travel/Simulation.java:112-136 | however many ticks run, such a ship never arrives and the run is never complete unless it is destroyed |
| TickFacts.RunKeepsDestroyed | src/space_travel/Simulation.java:86-94 | a destroyed ship is left exactly as it is by every later tick |
| TickFacts.DepartAndArriveSameTurn | src/space_travel/Simulation.java:89-91 | a ship that departs with at most one hour to go arrives in the same turn when its destination exists |
| TickFacts.DestroyedAndArrived | src/space_travel/Simulation.java:112-125 | an active ship on its last hour whose passengers all die is destroyed and arrived at once |
| TickFacts.ArrivedShipDepartsAgain | src/space_travel/Simulation.java:96-110 | an arrived ship whose departure date shows again leaves again, in transit and arrived at once, with its old passengers still aboard before the new boarders |
| TickFacts.ReLandingListsTwice | src/space_travel/Simulation.java:96-123 | an arrived ship that departs again with at most one hour to go lands its surviving old passengers a second time, adding a listing for each at the destination |
| TickFacts.ArrivalLeavesPassengersAboard | src/space_travel/Simulation.java:116-123 | after an arrival every passenger is both aboard and a resident of the destination, tagged with its name |
| TickFacts.ArrivalKeepsLife | src/space_travel/Simulation.java:112-125 | arrival takes nobody's time |
| TickFacts.BoardThenFly | src/space_travel/Simulation.java:89-90 | boarding followed by the ship's `passHour` ages a boarder listed once exactly one hour |
| TickFacts.BoardersAgeAboard | src/space_travel/Simulation.java:89-91 | a boarder listed once loses exactly one hour during the ship's boarding turn |
| TickFacts.PlanetHourKeepsInvariant | src/space_travel/Planet.java:42-51 | one planet's hour keeps residents apart and leaves only living residents on the planets visited so far |
| TickFacts.SweepLeavesOnlyLiving | src/space_travel/Simulation.java:80-84 | the first `k` planet turns keep residents apart and leave only living residents on the planets they have visited |
| TickFacts.BoardersAlive | src/space_travel/Simulation.java:102-107 | from planets holding only the living, a departure boards only the living |
| TickFacts.DeadCannotBoard | src/space_travel/Simulation.java:45-46 | since planets update before ships, a departure evaluated right after the planet step (the first ship's turn) boards only the living, provided no planet listed anyone twice and nobody lived on two planets |

## Left out

- File reading (`readPlanets`, `readSpaceships`, `readPeople` in
  `FileReader.java`) is left out. It is I/O with library string parsing and
  swallowed exceptions. The model takes already-parsed records.
- Parsing in the `Time` constructor is left out, because it uses the library's
  `split` and `parseInt`. A time is built from three integers.
- Console output is left out: `displayState`, `clearScreen`, the display-side
  "effectively destroyed" logic, `getHour`, `getFullTime` and every `toString`.
- The two warnings `placePeople` writes to standard error are left out: one when
  a named ship's departure planet is missing (`FileReader.java:142`), one when
  a location tag names neither a ship nor a planet (`FileReader.java:156`).
  The model keeps what follows from them: such a person is placed nowhere.
- `Main` is left out; it only wires files to the engine.
- The `calculateArrivalDate` branch that predicts a date is left out, because
  it parses the departure date string. Its closed form `addHours` is modelled
  and proved equal to repeated `increaseHour`.
- The `originalPassengers` and `actualArrivalDate` fields are written but never
  read in the model, because only the display reads them.
- Getters are left out; the model reads the datatype fields directly.
- Simulation.Run: the `start` loop may never end (a missing destination or a
  departure date that never shows keeps it open). `Run` therefore takes a `fuel`
  bound and says nothing about turns beyond it.
- Java's 32-bit `int` overflow of the hour counter, the calendar fields and
  remaining life is not modelled; integers are unbounded.
- Calendar.AddHours: requires a day length of at least 1. With a day length of 0
  the Java code throws on division by zero, and that case is not modelled. A
  negative day length, which Java divides by without complaint, is not
  modelled either.
- Calendar.GetDate: `String.format` without a locale writes digits of the
  JVM's default locale. The model writes ASCII digits, so it assumes a default
  locale whose zero digit is `0`. Under a locale with other digits
  `dateMatches` would never accept an ASCII departure date, and no ship would
  leave. The same holds for `Decimal.IntText` and `Decimal.Pad2Text`.
- Calendar.AddHoursAdvances: the equivalence with `increaseHour` is proved for
  `n >= 0` and valid times only. For negative `n`, `addHours` follows Java's
  truncating division and remainder and can leave a negative hour, which has
  no `increaseHour` counterpart.
- TickFacts.BoardersAgeAboard: the three hours lost on a departure tick are not
  proved as one statement over a whole tick. The lemma covers the hour aboard;
  the hours from the global pass and from the planet come from
  `Simulation.AgeEveryone` and `Planets.PassHourKeepsLiving`.
- TickFacts.DeadCannotBoard: proved only for a departure evaluated right after
  the planet step, which is the first ship's turn. Later ships depart after
  earlier ships have landed their passengers, and that is not covered. The
  lemma also assumes that no planet lists anyone twice and nobody lives on two
  planets. The run as written does not keep that true: a ship can land its
  passengers twice (`TickFacts.ReLandingListsTwice`), and a twice-listed person
  can stay on a planet with no life left
  (`Planets.DuplicateResidentOutlivesDeath`).
- Unique planet and ship names are not assumed. Duplicate names follow the
  `HashMap` last-wins rule (`Lookup.LastIndexMap`).

=== FILE: calendar.dfy ===
/**
 The per-planet calendar of src/space_travel/Time.java: a day, month, year and
 hour counter where a day has `dayLength` hours and every month has 30 days.

 The absolute hour count `AbsHour` numbers the hours of a valid time
 consecutively; it is the yardstick against which both ways of advancing the
 clock, one hour at a time and many hours at once, are compared.
 */
module Calendar {
  import opened Wrappers
  import opened Decimal

  const DaysPerMonth := 30
  const MonthsPerYear := 12

  datatype Time = Time(day: int, month: int, year: int, hour: int, dayLength: int)

  /** The constructor, with the date string already split into its three integers. */
  function NewTime(day: int, month: int, year: int, dayLength: int): (t: Time)
    ensures t.hour == 0 && t.dayLength == dayLength
    ensures t.day == day && t.month == month && t.year == year
  {
    Time(day, month, year, 0, dayLength)
  }

  /** Every field in its range; the constructor does not check this. */
  predicate Valid(t: Time)
  {
    && 1 <= t.dayLength
    && 0 <= t.hour < t.dayLength
    && 1 <= t.day <= DaysPerMonth
    && 1 <= t.month <= MonthsPerYear
  }

  /** Days elapsed since day 1 of month 1 of year 0. */
  function DayIndex(t: Time): int
  {
    (t.year * MonthsPerYear + t.month - 1) * DaysPerMonth + t.day - 1
  }

  /** Hours elapsed since hour 0 of day 1 of month 1 of year 0. */
  function AbsHour(t: Time): int
  {
    DayIndex(t) * t.dayLength + t.hour
  }

  /** `increaseHour`: one hour later, rolling hour into day, day into month, month into year. */
  function IncreaseHour(t: Time): (r: Time)
    ensures r.dayLength == t.dayLength
    ensures Valid(t) ==> Valid(r) && AbsHour(r) == AbsHour(t) + 1
  {
    var h := t.hour + 1;
    if h < t.dayLength then t.(hour := h)
    else
      assert (DayIndex(t) + 1) * t.dayLength == DayIndex(t) * t.dayLength + t.dayLength;
      var d := t.day + 1;
      if d <= DaysPerMonth then t.(hour := 0, day := d)
      else
        var m := t.month + 1;
        if m <= MonthsPerYear then t.(hour := 0, day := 1, month := m)
        else t.(hour := 0, day := 1, month := 1, year := t.year + 1)
  }

  /** `n` successive calls of `increaseHour`. */
  function IncreaseHourN(t: Time, n: nat): Time
    decreases n
  {
    if n == 0 then t else IncreaseHourN(IncreaseHour(t), n - 1)
  }

  /** Java's `/` on int, which truncates toward zero (Dafny's `/` is Euclidean). */
  function JavaDiv(a: int, b: int): (q: int)
    requires 0 < b
    ensures 0 <= a ==> q == a / b
    ensures 0 <= a ==> q * b <= a < q * b + b
    ensures a < 0 ==> q * b - b < a <= q * b
  {
    if 0 <= a then a / b else -((-a) / b)
  }

  /** Java's `%` on int: the remainder takes the sign of the dividend. */
  function JavaRem(a: int, b: int): (r: int)
    requires 0 < b
    ensures 0 <= a ==> r == a % b
    ensures JavaDiv(a, b) * b + r == a
    ensures 0 <= a ==> 0 <= r < b
    ensures a < 0 ==> -b < r <= 0
  {
    a - b * JavaDiv(a, b)
  }

  /**
   The `while (day > DAYS_PER_MONTH)` loop of `addHours`: moves whole months
   out of the day count into the month and year.
   */
  function CarryDays(day: int, month: int, year: int): (r: (int, int, int))
    ensures 1 <= day && 1 <= month <= MonthsPerYear ==>
              && 1 <= r.0 <= DaysPerMonth
              && 1 <= r.1 <= MonthsPerYear
              && (r.2 * MonthsPerYear + r.1 - 1) * DaysPerMonth + r.0
                 == (year * MonthsPerYear + month - 1) * DaysPerMonth + day
    ensures 1 <= month <= MonthsPerYear ==>
              (r.2 * MonthsPerYear + r.1 - 1) * DaysPerMonth + r.0
              == (year * MonthsPerYear + month - 1) * DaysPerMonth + day
    decreases day
  {
    if day <= DaysPerMonth then (day, month, year)
    else if month + 1 > MonthsPerYear then CarryDays(day - DaysPerMonth, 1, year + 1)
    else CarryDays(day - DaysPerMonth, month + 1, year)
  }

  /** `addHours`: the closed form that splits the hour total into days and a remainder. */
  function AddHours(t: Time, hours: int): (r: Time)
    requires 1 <= t.dayLength
    ensures r.dayLength == t.dayLength
    ensures 0 <= t.hour + hours ==> 0 <= r.hour < t.dayLength
    ensures t.hour + hours < 0 ==> -t.dayLength < r.hour <= 0
    ensures 1 <= t.month <= MonthsPerYear ==> AbsHour(r) == AbsHour(t) + hours
  {
    var total := t.hour + hours;
    var q := JavaDiv(total, t.dayLength);
    var carried := CarryDays(t.day + q, t.month, t.year);
    var r := Time(carried.0, carried.1, carried.2, JavaRem(total, t.dayLength), t.dayLength);
    if 1 <= t.month <= MonthsPerYear then
      assert DayIndex(r) == DayIndex(t) + q;
      assert (DayIndex(t) + q) * t.dayLength == DayIndex(t) * t.dayLength + q * t.dayLength;
      r
    else r
  }

  /**
   `getDate`: `%02d.%02d.%d` of day, month and year. With day and month in
   0..99 that is two digits, a dot, two digits, a dot, then the year.
   */
  function GetDate(t: Time): (s: string)
    ensures 0 <= t.day <= 99 && 0 <= t.month <= 99 ==>
              s == [DigitChar(t.day / 10), DigitChar(t.day % 10), '.',
                    DigitChar(t.month / 10), DigitChar(t.month % 10), '.'] + IntText(t.year)
  {
    Pad2Text(t.day) + "." + Pad2Text(t.month) + "." + IntText(t.year)
  }

  /**
   `dateMatches`: exact string equality with the rendered date. On a valid
   time it accepts exactly the canonical strings that read back as this
   time's day, month and year.
   */
  function DateMatches(t: Time, date: string): (b: bool)
    ensures Valid(t) ==> (b <==> ParseDate(date) == Some((t.day, t.month, t.year)) && Canonical(date))
  {
    var b := GetDate(t) == date;
    if Valid(t) then DateMatchesCanonical(t, date); b else b
  }

  /**
   A date string in the form `%02d.%02d.%d` writes: two digits, a dot, two
   digits, a dot, and a year with no leading zero and no `-0`.
   */
  predicate Canonical(date: string)
  {
    && 7 <= |date|
    && IsDigit(date[0]) && IsDigit(date[1]) && date[2] == '.'
    && IsDigit(date[3]) && IsDigit(date[4]) && date[5] == '.'
    && CanonicalInt(date[6..])
  }

  /** Reads a `dd.mm.<year>` string with exactly two digits for day and month. */
  function ParseDate(s: string): Option<(int, int, int)>
  {
    if 7 <= |s| && IsDigit(s[0]) && IsDigit(s[1]) && s[2] == '.'
       && IsDigit(s[3]) && IsDigit(s[4]) && s[5] == '.'
    then
      match ParseInt(s[6..])
      case Some(y) =>
        Some((10 * DigitValue(s[0]) + DigitValue(s[1]), 10 * DigitValue(s[3]) + DigitValue(s[4]), y))
      case None => None
    else None
  }

  // ---------------------------------------------------------------------------
  // Arithmetic helpers

  lemma MulAtLeast(k: int, d: int)
    requires 1 <= k && 1 <= d
    ensures d <= k * d
  {
    assert k * d == (k - 1) * d + d;
  }

  /** Quotient and remainder of a division by a positive divisor are unique. */
  lemma DivModUnique(q1: int, r1: int, q2: int, r2: int, d: int)
    requires 1 <= d
    requires 0 <= r1 < d && 0 <= r2 < d
    requires q1 * d + r1 == q2 * d + r2
    ensures q1 == q2 && r1 == r2
  {
    if q1 < q2 {
      assert (q2 - q1) * d == q2 * d - q1 * d;
      MulAtLeast(q2 - q1, d);
    } else if q2 < q1 {
      assert (q1 - q2) * d == q1 * d - q2 * d;
      MulAtLeast(q1 - q2, d);
    }
  }

  // ---------------------------------------------------------------------------
  // Properties

  /** A valid time is determined by its day length and absolute hour count. */
  lemma AbsHourInjective(t1: Time, t2: Time)
    requires Valid(t1) && Valid(t2)
    requires t1.dayLength == t2.dayLength
    requires AbsHour(t1) == AbsHour(t2)
    ensures t1 == t2
  {
    DivModUnique(DayIndex(t1), t1.hour, DayIndex(t2), t2.hour, t1.dayLength);
    DivModUnique(t1.year * MonthsPerYear + t1.month - 1, t1.day - 1,
                 t2.year * MonthsPerYear + t2.month - 1, t2.day - 1, DaysPerMonth);
    DivModUnique(t1.year, t1.month - 1, t2.year, t2.month - 1, MonthsPerYear);
  }

  /** The rollover cases of `increaseHour` on a valid time. */
  lemma IncreaseHourRollsOver(t: Time)
    requires Valid(t)
    ensures t.hour + 1 < t.dayLength ==> IncreaseHour(t) == t.(hour := t.hour + 1)
    ensures t.hour + 1 == t.dayLength && t.day < DaysPerMonth ==>
              IncreaseHour(t) == t.(hour := 0, day := t.day + 1)
    ensures t.hour + 1 == t.dayLength && t.day == DaysPerMonth && t.month < MonthsPerYear ==>
              IncreaseHour(t) == t.(hour := 0, day := 1, month := t.month + 1)
    ensures t.hour + 1 == t.dayLength && t.day == DaysPerMonth && t.month == MonthsPerYear ==>
              IncreaseHour(t) == Time(1, 1, t.year + 1, 0, t.dayLength)
  {
  }

  /** `n` calls of `increaseHour` keep a valid time valid and move it exactly `n` hours on. */
  lemma {:induction false} IncreaseHourNAdvances(t: Time, n: nat)
    requires Valid(t)
    ensures Valid(IncreaseHourN(t, n))
    ensures IncreaseHourN(t, n).dayLength == t.dayLength
    ensures AbsHour(IncreaseHourN(t, n)) == AbsHour(t) + n
    decreases n
  {
    if n > 0 {
      IncreaseHourNAdvances(IncreaseHour(t), n - 1);
    }
  }

  /** `addHours(n)` for `n >= 0` keeps a valid time valid and moves it exactly `n` hours on. */
  lemma AddHoursAdvances(t: Time, n: int)
    requires Valid(t)
    requires 0 <= n
    ensures Valid(AddHours(t, n))
    ensures AbsHour(AddHours(t, n)) == AbsHour(t) + n
  {
    var total := t.hour + n;
    var q := total / t.dayLength;
    var r := AddHours(t, n);
    assert r.hour == total % t.dayLength;
    assert DayIndex(r) == DayIndex(t) + q;
    assert (DayIndex(t) + q) * t.dayLength == DayIndex(t) * t.dayLength + q * t.dayLength;
    assert q * t.dayLength + r.hour == total;
  }

  /** The closed form agrees with the iteration it replaces, for every `n >= 0`. */
  lemma AddHoursIsRepeatedIncrease(t: Time, n: nat)
    requires Valid(t)
    ensures AddHours(t, n) == IncreaseHourN(t, n)
  {
    AddHoursAdvances(t, n);
    IncreaseHourNAdvances(t, n);
    AbsHourInjective(AddHours(t, n), IncreaseHourN(t, n));
  }

  /** Adding zero hours to a valid time changes nothing. */
  lemma AddZeroHours(t: Time)
    requires Valid(t)
    ensures AddHours(t, 0) == t
  {
    AddHoursAdvances(t, 0);
    AbsHourInjective(AddHours(t, 0), t);
  }

  /** `ParseDate` reads back the rendering of every valid time. */
  lemma GetDateRoundTrip(t: Time)
    requires Valid(t)
    ensures ParseDate(GetDate(t)) == Some((t.day, t.month, t.year))
  {
    var s := GetDate(t);
    assert s[6..] == IntText(t.year);
    IntTextRoundTrip(t.year);
  }

  /** A canonical string that reads back as a valid time's date is that time's rendering. */
  lemma CanonicalDateIsRendering(t: Time, date: string)
    requires Valid(t)
    requires Canonical(date)
    requires ParseDate(date) == Some((t.day, t.month, t.year))
    ensures date == GetDate(t)
  {
    var d0, d1 := DigitValue(date[0]), DigitValue(date[1]);
    var m0, m1 := DigitValue(date[3]), DigitValue(date[4]);
    assert t.day == 10 * d0 + d1 && t.month == 10 * m0 + m1;
    assert t.day / 10 == d0 && t.day % 10 == d1;
    assert t.month / 10 == m0 && t.month % 10 == m1;
    assert DigitChar(d0) == date[0] && DigitChar(d1) == date[1];
    assert DigitChar(m0) == date[3] && DigitChar(m1) == date[4];
    CanonicalIntIsText(date[6..]);
    assert date == date[..6] + date[6..];
  }

  /** On a valid time the rendering is the one canonical string that reads back as its date. */
  lemma DateMatchesCanonical(t: Time, date: string)
    requires Valid(t)
    ensures GetDate(t) == date <==> ParseDate(date) == Some((t.day, t.month, t.year)) && Canonical(date)
  {
    GetDateRoundTrip(t);
    assert GetDate(t)[6..] == IntText(t.year);
    if ParseDate(date) == Some((t.day, t.month, t.year)) && Canonical(date) {
      CanonicalDateIsRendering(t, date);
    }
  }

  /** Two valid times render to the same string iff they are on the same day. */
  lemma SameDateIffSameDay(t1: Time, t2: Time)
    requires Valid(t1) && Valid(t2)
    ensures GetDate(t1) == GetDate(t2) <==>
              t1.day == t2.day && t1.month == t2.month && t1.year == t2.year
  {
    GetDateRoundTrip(t1);
    GetDateRoundTrip(t2);
  }

  /** An unpadded day such as in `1.1.2400` never matches a valid time. */
  lemma UnpaddedNeverMatches(t: Time, date: string)
    requires Valid(t)
    requires 2 <= |date| && date[1] == '.'
    ensures !DateMatches(t, date)
  {
    assert GetDate(t)[1] == DigitChar(t.day % 10);
  }
}

=== FILE: decimal.dfy ===
/**
 Decimal text of integers as Java's `String.format` writes it: `%d` is the
 plain decimal with a leading minus sign for negatives, and `%02d` pads with
 one leading zero when that text is shorter than two characters. The parser
 here is the inverse used to show that the rendering loses nothing; it is not
 the Java parser.
 */
module Decimal {
  import opened Wrappers

  predicate IsDigit(c: char)
  {
    '0' <= c <= '9'
  }

  function DigitChar(d: int): (c: char)
    requires 0 <= d <= 9
    ensures IsDigit(c)
  {
    (d + '0' as int) as char
  }

  function DigitValue(c: char): (d: int)
    requires IsDigit(c)
    ensures 0 <= d <= 9
  {
    c as int - '0' as int
  }

  predicate AllDigits(s: string)
  {
    forall i | 0 <= i < |s| :: IsDigit(s[i])
  }

  /** A run of digits as `%d` writes one: non-empty, no leading zero unless it is just `0`. */
  predicate Numeral(s: string)
  {
    && 1 <= |s|
    && AllDigits(s)
    && (s[0] == '0' ==> |s| == 1)
  }

  /** Text as `%d` writes an int: a numeral, or a minus sign before a numeral other than `0`. */
  predicate CanonicalInt(s: string)
  {
    || Numeral(s)
    || (2 <= |s| && s[0] == '-' && Numeral(s[1..]) && s[1] != '0')
  }

  /** `%d` of a non-negative number: digits only, most significant first. */
  function NatText(n: nat): (s: string)
    ensures 1 <= |s|
    ensures AllDigits(s)
    ensures n < 10 <==> |s| == 1
    ensures s[0] == '0' <==> n == 0
    ensures Numeral(s)
  {
    if n < 10 then [DigitChar(n)] else NatText(n / 10) + [DigitChar(n % 10)]
  }

  /**
   `%d` of any int: a minus sign exactly for negatives, then at least one
   digit; a single character exactly for 0..9.
   */
  function IntText(n: int): (s: string)
    ensures 1 <= |s|
    ensures n < 0 <==> s[0] == '-'
    ensures n < 0 ==> 2 <= |s| && AllDigits(s[1..])
    ensures 0 <= n ==> AllDigits(s)
    ensures |s| == 1 <==> 0 <= n < 10
    ensures CanonicalInt(s)
  {
    if n < 0 then
      var t := NatText(-n);
      assert ("-" + t)[1..] == t;
      "-" + t
    else NatText(n)
  }

  /**
   `%02d` of any int: at least two characters; 0..99 as exactly its tens and
   units digit; anything already two characters long is left unpadded.
   */
  function Pad2Text(n: int): (s: string)
    ensures 2 <= |s|
    ensures 0 <= n <= 99 ==> s == [DigitChar(n / 10), DigitChar(n % 10)]
    ensures (n < 0 || 10 <= n) ==> s == IntText(n)
  {
    var s := IntText(n);
    if |s| < 2 then
      assert NatText(n) == [DigitChar(n)];
      assert "0" == [DigitChar(0)];
      "0" + s
    else
      if 10 <= n <= 99 then
        assert NatText(n / 10) == [DigitChar(n / 10)];
        assert NatText(n) == [DigitChar(n / 10), DigitChar(n % 10)];
        s
      else s
  }

  /** Value of a non-empty run of digits, most significant first. */
  function DigitsValue(s: string): nat
    requires AllDigits(s)
    decreases |s|
  {
    if |s| == 0 then 0
    else DigitsValue(s[..|s| - 1]) * 10 + DigitValue(s[|s| - 1])
  }

  /** Inverse of `IntText`: an optional minus sign followed by at least one digit. */
  function ParseInt(s: string): Option<int>
  {
    if 2 <= |s| && s[0] == '-' && AllDigits(s[1..]) then
      var magnitude: int := DigitsValue(s[1..]);
      Some(-magnitude)
    else if 1 <= |s| && AllDigits(s) then Some(DigitsValue(s))
    else None
  }

  lemma {:induction false} NatTextRoundTrip(n: nat)
    ensures DigitsValue(NatText(n)) == n
    decreases n
  {
    if n >= 10 {
      var s := NatText(n);
      NatTextRoundTrip(n / 10);
      assert s[..|s| - 1] == NatText(n / 10);
    }
  }

  /** A numeral whose first digit is not `0` has a positive value. */
  lemma {:induction false} LeadingDigitPositive(s: string)
    requires 1 <= |s| && AllDigits(s) && s[0] != '0'
    ensures DigitsValue(s) >= 1
    decreases |s|
  {
    if |s| > 1 {
      LeadingDigitPositive(s[..|s| - 1]);
    }
  }

  /** A numeral is exactly the text `%d` writes for its value. */
  lemma {:induction false} NumeralIsNatText(s: string)
    requires Numeral(s)
    ensures s == NatText(DigitsValue(s))
    decreases |s|
  {
    var last := |s| - 1;
    var d := DigitValue(s[last]);
    if |s| == 1 {
      assert DigitChar(d) == s[0];
    } else {
      var p := s[..last];
      NumeralIsNatText(p);
      LeadingDigitPositive(p);
      var v := DigitsValue(p);
      var n := DigitsValue(s);
      assert n == v * 10 + d;
      assert n / 10 == v && n % 10 == d;
      assert DigitChar(d) == s[last];
      assert s == p + [s[last]];
    }
  }

  /** Canonical text reads back as an int whose `%d` is that very text. */
  lemma CanonicalIntIsText(s: string)
    requires CanonicalInt(s)
    ensures ParseInt(s).Some?
    ensures IntText(ParseInt(s).value) == s
  {
    if Numeral(s) {
      NumeralReadsBack(s);
    } else {
      NegativeNumeralReadsBack(s);
    }
  }

  lemma NumeralReadsBack(s: string)
    requires Numeral(s)
    ensures ParseInt(s) == Some(DigitsValue(s))
    ensures IntText(DigitsValue(s)) == s
  {
    NumeralIsNatText(s);
  }

  lemma NegativeNumeralReadsBack(s: string)
    requires 2 <= |s| && s[0] == '-' && Numeral(s[1..]) && s[1] != '0'
    ensures ParseInt(s) == Some(-(DigitsValue(s[1..]) as int))
    ensures IntText(-(DigitsValue(s[1..]) as int)) == s
  {
    var t := s[1..];
    NumeralIsNatText(t);
    LeadingDigitPositive(t);
    assert s == "-" + t;
  }

  /** A minus sign before the digits of `m` reads back as `-m`. */
  lemma ParseNegative(m: nat)
    ensures ParseInt("-" + NatText(m)) == Some(-(m as int))
  {
    var t := NatText(m);
    var s := "-" + t;
    assert s[1..] == t;
    NatTextRoundTrip(m);
  }

  /** The digits of `m` read back as `m`. */
  lemma ParseDigits(m: nat)
    ensures ParseInt(NatText(m)) == Some(m)
  {
    var t := NatText(m);
    assert IsDigit(t[0]);
    NatTextRoundTrip(m);
  }

  /** `ParseInt` reads back every number `IntText` writes. */
  lemma IntTextRoundTrip(n: int)
    ensures ParseInt(IntText(n)) == Some(n)
  {
    if n < 0 {
      ParseNegative(-n);
    } else {
      ParseDigits(n);
    }
  }
}

=== FILE: lookup.dfy ===
/**
 Name-keyed lookup tables. The Java code builds a `HashMap<String, X>` by
 putting every element of a list in order, so when two elements share a name
 the later one wins. Here the table maps a name to the position of its LAST
 occurrence in the list.
 */
module Lookup {

  /** Position of the last occurrence of every name in `names`. */
  function LastIndexMap(names: seq<string>): (m: map<string, nat>)
    ensures m.Keys == set n | n in names
    ensures forall n <- m.Keys :: m[n] < |names| && names[m[n]] == n
    ensures forall n <- m.Keys, j | m[n] < j < |names| :: names[j] != n
    decreases |names|
  {
    if |names| == 0 then map[]
    else
      var last := |names| - 1;
      var m0 := LastIndexMap(names[..last]);
      assert names == names[..last] + [names[last]];
      m0[names[last] := last]
  }

  /** No name occurs twice. */
  predicate Unique(names: seq<string>)
  {
    forall i, j | 0 <= i < j < |names| :: names[i] != names[j]
  }

  /** With unique names the table is an exact index: every position is found. */
  lemma UniqueNamesAreFound(names: seq<string>, i: nat)
    requires Unique(names)
    requires i < |names|
    ensures names[i] in LastIndexMap(names)
    ensures LastIndexMap(names)[names[i]] == i
  {
    var m := LastIndexMap(names);
    assert names[i] in m.Keys;
  }
}

=== FILE: people.dfy ===
/**
 People of src/space_travel/Person.java and the lists that hold them.

 The Java code shares `Person` objects by reference between the master list,
 the planets' populations and the ships' passenger lists. Here every person
 has an id, a `Store` maps ids to their current state, and every list is a
 sequence of ids, so that an aliased person and every decrement of their
 remaining life are explicit.
 */
module People {

  type PersonId = nat

  datatype Person = Person(name: string, age: int, lifeRemaining: int, location: string)

  /** `passHour`: one hour of life less; name, age and location stay. */
  function PassHour(p: Person): (r: Person)
    ensures r.lifeRemaining == p.lifeRemaining - 1
    ensures r.name == p.name && r.age == p.age && r.location == p.location
  {
    p.(lifeRemaining := p.lifeRemaining - 1)
  }

  /** `isAlive`. */
  predicate IsAlive(p: Person)
  {
    p.lifeRemaining > 0
  }

  /** `setCurrentVehicle`: a new location tag; name, age and remaining life stay. */
  function SetLocation(p: Person, location: string): (r: Person)
    ensures r.location == location
    ensures r.name == p.name && r.age == p.age && r.lifeRemaining == p.lifeRemaining
  {
    p.(location := location)
  }

  /** The same person `k` hours older. */
  function Aged(p: Person, k: int): Person
  {
    p.(lifeRemaining := p.lifeRemaining - k)
  }

  /** `k` successive calls of `passHour`. */
  function PassHours(p: Person, k: nat): Person
    decreases k
  {
    if k == 0 then p else PassHours(PassHour(p), k - 1)
  }

  /** `k` hours of aging cost exactly `k` hours of life, and nothing else changes. */
  lemma {:induction false} PassHoursAges(p: Person, k: nat)
    ensures PassHours(p, k) == Aged(p, k)
    ensures IsAlive(PassHours(p, k)) <==> k < p.lifeRemaining
    decreases k
  {
    if k > 0 {
      PassHoursAges(PassHour(p), k - 1);
    }
  }

  // ---------------------------------------------------------------------------
  // The store of all people and lists of ids

  type Store = map<PersonId, Person>

  /** Every id of the list names a person of the store. */
  predicate AllIn(ids: seq<PersonId>, store: Store)
  {
    forall i | 0 <= i < |ids| :: ids[i] in store
  }

  lemma AllInConcat(xs: seq<PersonId>, ys: seq<PersonId>, store: Store)
    requires AllIn(xs, store) && AllIn(ys, store)
    ensures AllIn(xs + ys, store)
  {
  }

  /** No id occurs twice in the list. */
  predicate Distinct(ids: seq<PersonId>)
  {
    forall i, j | 0 <= i < j < |ids| :: ids[i] != ids[j]
  }

  /** Names and ages of everybody in `s` are the same in `r` (no one is added or dropped). */
  predicate SameIdentities(s: Store, r: Store)
  {
    && r.Keys == s.Keys
    && forall id <- s.Keys :: r[id].name == s[id].name && r[id].age == s[id].age
  }

  /** The people of `ids` who are alive in `store`, in list order. */
  function Living(ids: seq<PersonId>, store: Store): (r: seq<PersonId>)
    requires AllIn(ids, store)
    ensures AllIn(r, store)
    ensures multiset(r) <= multiset(ids)
    ensures forall i | 0 <= i < |r| :: IsAlive(store[r[i]])
    ensures forall i | 0 <= i < |ids| :: IsAlive(store[ids[i]]) ==> ids[i] in r
    decreases |ids|
  {
    if |ids| == 0 then []
    else
      assert ids == [ids[0]] + ids[1..];
      (if IsAlive(store[ids[0]]) then [ids[0]] else []) + Living(ids[1..], store)
  }

  /** The people of `ids` whose location tag is `tag`, in list order. */
  function WithTag(ids: seq<PersonId>, store: Store, tag: string): (r: seq<PersonId>)
    requires AllIn(ids, store)
    ensures AllIn(r, store)
    decreases |ids|
  {
    if |ids| == 0 then []
    else (if store[ids[0]].location == tag then [ids[0]] else []) + WithTag(ids[1..], store, tag)
  }

  /** The people of `ids` whose location tag is not `tag`, in list order. */
  function WithoutTag(ids: seq<PersonId>, store: Store, tag: string): (r: seq<PersonId>)
    requires AllIn(ids, store)
    ensures AllIn(r, store)
    decreases |ids|
  {
    if |ids| == 0 then []
    else (if store[ids[0]].location == tag then [] else [ids[0]]) + WithoutTag(ids[1..], store, tag)
  }

  /**
   Aging of every listed person, one `passHour` per occurrence in the list, in
   list order. This is the loop of `Simulation.updateAllPeopleLife`, and the
   aging half of the planet and ship `passHour` loops.
   */
  function AgeAll(store: Store, ids: seq<PersonId>): (r: Store)
    requires AllIn(ids, store)
    ensures r.Keys == store.Keys
    ensures forall id <- store.Keys :: r[id] == Aged(store[id], multiset(ids)[id])
    decreases |ids|
  {
    if |ids| == 0 then store
    else
      assert ids == [ids[0]] + ids[1..];
      AgeAll(store[ids[0] := PassHour(store[ids[0]])], ids[1..])
  }

  /**
   The loop shared by `Planet.passHour` and `Spaceship.passHour`: each listed
   person in turn calls `passHour` and is kept when `isAlive` holds just after.
   A person listed twice is aged twice, and each occurrence is judged at the
   moment it is reached.
   */
  function AgeAndReap(store: Store, ids: seq<PersonId>): (r: (Store, seq<PersonId>))
    requires AllIn(ids, store)
    ensures r.0 == AgeAll(store, ids)
    ensures multiset(r.1) <= multiset(ids)
    decreases |ids|
  {
    if |ids| == 0 then (store, [])
    else
      var id := ids[0];
      var aged := store[id := PassHour(store[id])];
      assert ids == [id] + ids[1..];
      var rest := AgeAndReap(aged, ids[1..]);
      (rest.0, (if IsAlive(aged[id]) then [id] else []) + rest.1)
  }

  /**
   The keep rule of the aging loop stated per listing, against the ages before
   the loop: a listing is kept iff the person had more hours left than their
   listings up to and including this one. `seen` counts the listings already
   passed.
   */
  function Survivors(store: Store, ids: seq<PersonId>, seen: multiset<PersonId>): seq<PersonId>
    requires AllIn(ids, store)
    decreases |ids|
  {
    if |ids| == 0 then []
    else
      var id := ids[0];
      (if store[id].lifeRemaining > seen[id] + 1 then [id] else [])
        + Survivors(store, ids[1..], seen + multiset{id})
  }

  /** The aging loop, started part-way with `seen` listings already aged, keeps by the rule. */
  lemma {:induction false} ReapFollowsRuleFrom(live: Store, store: Store, ids: seq<PersonId>,
                                               seen: multiset<PersonId>)
    requires AllIn(ids, store) && AllIn(ids, live)
    requires forall id <- ids :: live[id].lifeRemaining == store[id].lifeRemaining - seen[id]
    ensures AgeAndReap(live, ids).1 == Survivors(store, ids, seen)
    decreases |ids|
  {
    if |ids| > 0 {
      var id := ids[0];
      var aged := live[id := PassHour(live[id])];
      var tail := ids[1..];
      var seen' := seen + multiset{id};
      forall x <- tail
        ensures aged[x].lifeRemaining == store[x].lifeRemaining - seen'[x]
      {
        assert x in ids;
      }
      ReapFollowsRuleFrom(aged, store, tail, seen');
    }
  }

  /**
   The aging loop keeps exactly the listings the per-listing rule keeps, in
   list order, repeated listings included.
   */
  lemma ReapRule(store: Store, ids: seq<PersonId>)
    requires AllIn(ids, store)
    ensures AgeAndReap(store, ids).1 == Survivors(store, ids, multiset{})
  {
    ReapFollowsRuleFrom(store, store, ids, multiset{});
  }

  /**
   With nobody listed twice, the kept list is exactly the listed people alive
   after their one hour of aging, in list order.
   */
  lemma {:induction false} ReapKeepsLiving(store: Store, ids: seq<PersonId>)
    requires AllIn(ids, store)
    requires Distinct(ids)
    ensures AgeAndReap(store, ids).1 == Living(ids, AgeAll(store, ids))
    decreases |ids|
  {
    if |ids| > 0 {
      var id := ids[0];
      var aged := store[id := PassHour(store[id])];
      var tail := ids[1..];
      assert Distinct(tail);
      assert id !in tail;
      ReapKeepsLiving(aged, tail);
      var fin := AgeAll(aged, tail);
      assert fin[id] == aged[id] by {
        AgeAllUntouched(aged, tail, id);
      }
      assert AgeAndReap(store, ids).1 == (if IsAlive(aged[id]) then [id] else []) + AgeAndReap(aged, tail).1;
      assert Living(ids, fin) == (if IsAlive(fin[id]) then [id] else []) + Living(tail, fin);
    }
  }

  /** Aging a list leaves everybody not on it as they were. */
  lemma AgeAllUntouched(store: Store, ids: seq<PersonId>, id: PersonId)
    requires AllIn(ids, store)
    requires id in store && id !in ids
    ensures AgeAll(store, ids)[id] == store[id]
  {
    assert multiset(ids)[id] == 0;
  }

  /**
   A person listed exactly once who still has more than one hour to live is
   kept by the aging loop, whoever else is listed.
   */
  lemma {:induction false} ReapKeepsSurvivor(store: Store, ids: seq<PersonId>, id: PersonId)
    requires AllIn(ids, store)
    requires multiset(ids)[id] == 1
    requires id in store && store[id].lifeRemaining > 1
    ensures id in AgeAndReap(store, ids).1
    decreases |ids|
  {
    var head := ids[0];
    var aged := store[head := PassHour(store[head])];
    assert ids == [head] + ids[1..];
    if head != id {
      assert multiset(ids[1..])[id] == 1;
      ReapKeepsSurvivor(aged, ids[1..], id);
    }
  }

  /**
   When nobody listed has more than one hour to live, the aging loop keeps
   nobody, however often a person is listed.
   */
  lemma {:induction false} ReapKeepsNobody(store: Store, ids: seq<PersonId>)
    requires AllIn(ids, store)
    requires forall id <- ids :: store[id].lifeRemaining <= 1
    ensures AgeAndReap(store, ids).1 == []
    decreases |ids|
  {
    if |ids| > 0 {
      var head := ids[0];
      var aged := store[head := PassHour(store[head])];
      assert !IsAlive(aged[head]);
      assert forall id <- ids[1..] :: aged[id].lifeRemaining <= 1 by {
        forall id <- ids[1..]
          ensures aged[id].lifeRemaining <= 1
        {
          assert id in ids;
        }
      }
      ReapKeepsNobody(aged, ids[1..]);
    }
  }

  /** With nobody listed twice, each listed person loses exactly one hour. */
  lemma AgeAllOnce(store: Store, ids: seq<PersonId>)
    requires AllIn(ids, store)
    requires Distinct(ids)
    ensures forall id <- ids :: AgeAll(store, ids)[id].lifeRemaining == store[id].lifeRemaining - 1
  {
    forall id <- ids
      ensures multiset(ids)[id] == 1
    {
      DistinctCountsOnce(ids, id);
    }
  }

  /** In a list without repetition every member occurs exactly once. */
  lemma {:induction false} DistinctCountsOnce(ids: seq<PersonId>, id: PersonId)
    requires Distinct(ids)
    requires id in ids
    ensures multiset(ids)[id] == 1
    decreases |ids|
  {
    assert ids == [ids[0]] + ids[1..];
    if ids[0] == id {
      assert id !in ids[1..];
    } else {
      DistinctCountsOnce(ids[1..], id);
    }
  }

  /** A sub-multiset of a repetition-free list is repetition-free. */
  lemma SubMultisetDistinct(xs: seq<PersonId>, ys: seq<PersonId>)
    requires Distinct(ys)
    requires multiset(xs) <= multiset(ys)
    ensures Distinct(xs)
  {
    forall i, j | 0 <= i < j < |xs|
      ensures xs[i] != xs[j]
    {
      if xs[i] == xs[j] {
        var x := xs[i];
        assert x in ys by {
          assert x in multiset(xs);
        }
        DistinctCountsOnce(ys, x);
        MultisetCountAtLeastTwo(xs, i, j);
        assert false;
      }
    }
  }

  lemma MultisetCountAtLeastTwo(xs: seq<PersonId>, i: nat, j: nat)
    requires i < j < |xs|
    requires xs[i] == xs[j]
    ensures multiset(xs)[xs[i]] >= 2
  {
    assert xs == xs[..i] + [xs[i]] + xs[i + 1..j] + [xs[j]] + xs[j + 1..];
  }

  /** The tag filters split a list: every person lands in exactly one of the two parts. */
  lemma {:induction false} TagFiltersPartition(ids: seq<PersonId>, store: Store, tag: string)
    requires AllIn(ids, store)
    ensures multiset(WithTag(ids, store, tag)) + multiset(WithoutTag(ids, store, tag)) == multiset(ids)
    ensures forall id <- WithTag(ids, store, tag) :: store[id].location == tag
    ensures forall id <- WithoutTag(ids, store, tag) :: store[id].location != tag
    decreases |ids|
  {
    if |ids| > 0 {
      assert ids == [ids[0]] + ids[1..];
      TagFiltersPartition(ids[1..], store, tag);
    }
  }

  /** Filtering out a tag twice is filtering it out once, and leaves nobody with that tag. */
  lemma {:induction false} WithoutTagIdempotent(ids: seq<PersonId>, store: Store, tag: string)
    requires AllIn(ids, store)
    ensures AllIn(WithoutTag(ids, store, tag), store)
    ensures WithoutTag(WithoutTag(ids, store, tag), store, tag) == WithoutTag(ids, store, tag)
    ensures WithTag(WithoutTag(ids, store, tag), store, tag) == []
    decreases |ids|
  {
    if |ids| > 0 {
      WithoutTagIdempotent(ids[1..], store, tag);
      var rest := WithoutTag(ids[1..], store, tag);
      if store[ids[0]].location != tag {
        var w := [ids[0]] + rest;
        assert WithoutTag(ids, store, tag) == w;
        assert w[0] == ids[0] && w[1..] == rest;
      } else {
        assert WithoutTag(ids, store, tag) == rest;
      }
    }
  }

  /**
   The arrival loop's `setCurrentVehicle(destination)` for every listed
   person: their tag becomes `location`; nobody else changes.
   */
  function Relocate(store: Store, ids: seq<PersonId>, location: string): (r: Store)
    requires AllIn(ids, store)
    ensures r.Keys == store.Keys
    ensures forall id <- store.Keys :: r[id] == (if id in ids then SetLocation(store[id], location) else store[id])
    decreases |ids|
  {
    if |ids| == 0 then store
    else
      assert ids == [ids[0]] + ids[1..];
      Relocate(store[ids[0] := SetLocation(store[ids[0]], location)], ids[1..], location)
  }
}

=== FILE: placement.dfy ===
/**
 The start-up placement rule, `placePeople` of src/space_travel/FileReader.java.
 Each person's location tag is looked up first among the ship names and only
 then among the planet names. A person waiting for a ship goes to that ship's
 departure planet and keeps the ship's name as tag, so that the ship's
 departure can find them there. A tag that leads nowhere leaves the person
 in no planet.
 */
module Placement {
  import opened Wrappers
  import opened Lookup
  import opened People
  import opened Planets
  import opened Spaceships

  predicate NamesShip(ships: seq<Ship>, tag: string)
  {
    exists i | 0 <= i < |ships| :: ships[i].name == tag
  }

  predicate NamesPlanet(planets: seq<Planet>, name: string)
  {
    exists k | 0 <= k < |planets| :: planets[k].name == name
  }

  /**
   The planet, by position, where a person tagged `tag` is put, if any. A
   ship name wins over a planet name; a ship whose departure planet does not
   exist, or a tag naming neither, places the person nowhere. Among ships, and
   among planets, sharing a name the last one listed wins.
   */
  function Resolve(tag: string, planets: seq<Planet>, ships: seq<Ship>): (r: Option<nat>)
    ensures r.Some? ==> r.value < |planets|
    ensures r.Some? ==> forall j | r.value < j < |planets| :: planets[j].name != planets[r.value].name
    ensures NamesShip(ships, tag) ==>
              exists i | 0 <= i < |ships| :: ships[i].name == tag
                && (forall j | i < j < |ships| :: ships[j].name != tag)
                && (r.Some? ==> planets[r.value].name == ships[i].departurePlanet)
                && (r.None? <==> !NamesPlanet(planets, ships[i].departurePlanet))
    ensures !NamesShip(ships, tag) ==>
              && (r.Some? ==> planets[r.value].name == tag)
              && (r.None? <==> !NamesPlanet(planets, tag))
  {
    var shipMap := LastIndexMap(ShipNames(ships));
    var planetMap := LastIndexMap(PlanetNames(planets));
    ShipTable(ships, tag);
    if tag in shipMap then
      var ship := ships[shipMap[tag]];
      PlanetTable(planets, ship.departurePlanet);
      if ship.departurePlanet in planetMap then Some(planetMap[ship.departurePlanet]) else None
    else
      PlanetTable(planets, tag);
      if tag in planetMap then Some(planetMap[tag])
      else None
  }

  /** The ship table finds exactly the names some ship carries, at the last such ship. */
  lemma ShipTable(ships: seq<Ship>, tag: string)
    ensures NamesShip(ships, tag) <==> tag in LastIndexMap(ShipNames(ships))
    ensures tag in LastIndexMap(ShipNames(ships)) ==>
              var i := LastIndexMap(ShipNames(ships))[tag];
              && i < |ships| && ships[i].name == tag
              && forall j | i < j < |ships| :: ships[j].name != tag
  {
    var names := ShipNames(ships);
    if NamesShip(ships, tag) {
      var i :| 0 <= i < |ships| && ships[i].name == tag;
      assert names[i] == tag;
    }
    if tag in LastIndexMap(names) {
      var i := LastIndexMap(names)[tag];
      forall j | i < j < |ships|
        ensures ships[j].name != tag
      {
        assert names[j] == ships[j].name;
      }
    }
  }

  /** The planet table finds exactly the names some planet carries, at the last such planet. */
  lemma PlanetTable(planets: seq<Planet>, name: string)
    ensures NamesPlanet(planets, name) <==> name in LastIndexMap(PlanetNames(planets))
    ensures name in LastIndexMap(PlanetNames(planets)) ==>
              var k := LastIndexMap(PlanetNames(planets))[name];
              && k < |planets| && planets[k].name == name
              && forall j | k < j < |planets| :: planets[j].name != name
  {
    var names := PlanetNames(planets);
    if NamesPlanet(planets, name) {
      var k :| 0 <= k < |planets| && planets[k].name == name;
      assert names[k] == name;
    }
    if name in LastIndexMap(names) {
      var k := LastIndexMap(names)[name];
      forall j | k < j < |planets|
        ensures planets[j].name != name
      {
        assert names[j] == planets[j].name;
      }
    }
  }

  /**
   With unique planet names, a tag naming planet `k` and no ship places the
   person on planet `k` itself.
   */
  lemma UniquePlanetNameResolves(tag: string, planets: seq<Planet>, ships: seq<Ship>, k: nat)
    requires Unique(PlanetNames(planets))
    requires !NamesShip(ships, tag)
    requires k < |planets| && planets[k].name == tag
    ensures Resolve(tag, planets, ships) == Some(k)
  {
    UniqueNamesAreFound(PlanetNames(planets), k);
    ShipTable(ships, tag);
  }

  /**
   With unique ship and planet names, a tag naming ship `i` whose departure
   planet is planet `k` places the person on planet `k`.
   */
  lemma UniqueShipNameResolves(tag: string, planets: seq<Planet>, ships: seq<Ship>, i: nat, k: nat)
    requires Unique(ShipNames(ships)) && Unique(PlanetNames(planets))
    requires i < |ships| && ships[i].name == tag
    requires k < |planets| && planets[k].name == ships[i].departurePlanet
    ensures Resolve(tag, planets, ships) == Some(k)
  {
    UniqueNamesAreFound(ShipNames(ships), i);
    UniqueNamesAreFound(PlanetNames(planets), k);
  }

  /** The people `placePeople` appends to planet `k`, in input order. */
  function PlacedOn(people: seq<PersonId>, store: Store, planets: seq<Planet>, ships: seq<Ship>, k: nat)
    : seq<PersonId>
    requires AllIn(people, store)
    decreases |people|
  {
    if |people| == 0 then []
    else
      var last := |people| - 1;
      PlacedOn(people[..last], store, planets, ships, k)
        + (if Resolve(store[people[last]].location, planets, ships) == Some(k) then [people[last]] else [])
  }

  /**
   `placePeople`: each person in input order is appended to the planet their
   tag resolves to; every planet ends up with its old population followed by
   exactly the people placed on it, in input order. Tags are not changed.
   */
  function PlacePeople(people: seq<PersonId>, store: Store, planets: seq<Planet>, ships: seq<Ship>)
    : (r: seq<Planet>)
    requires AllIn(people, store)
    ensures |r| == |planets|
    ensures forall k | 0 <= k < |planets| ::
              && r[k].population == planets[k].population + PlacedOn(people, store, planets, ships, k)
              && r[k].name == planets[k].name
              && r[k].dayLength == planets[k].dayLength
              && r[k].time == planets[k].time
    decreases |people|
  {
    if |people| == 0 then planets
    else
      var last := |people| - 1;
      var front := people[..last];
      var before := PlacePeople(front, store, planets, ships);
      var x := people[last];
      var dest := Resolve(store[x].location, planets, ships);
      var r := if dest.None? then before else before[dest.value := AddPerson(before[dest.value], x)];
      assert forall k | 0 <= k < |planets| ::
               && r[k].population == planets[k].population + PlacedOn(people, store, planets, ships, k)
               && r[k].name == planets[k].name
               && r[k].dayLength == planets[k].dayLength
               && r[k].time == planets[k].time by {
        forall k | 0 <= k < |planets|
          ensures r[k].population == planets[k].population + PlacedOn(people, store, planets, ships, k)
          ensures r[k].name == planets[k].name
          ensures r[k].dayLength == planets[k].dayLength
          ensures r[k].time == planets[k].time
        {
          var placed := PlacedOn(front, store, planets, ships, k);
          assert PlacedOn(people, store, planets, ships, k)
                 == placed + (if dest == Some(k) then [x] else []);
          if dest == Some(k) {
            assert r[k].population == (planets[k].population + placed) + [x];
          }
        }
      }
      r
  }

  /** Whoever is placed on planet `k` has a tag that resolves to `k`. */
  lemma {:induction false} PlacedOnResolves(people: seq<PersonId>, store: Store, planets: seq<Planet>,
                                            ships: seq<Ship>, k: nat, id: PersonId)
    requires AllIn(people, store)
    requires id in PlacedOn(people, store, planets, ships, k)
    ensures id in store
    ensures Resolve(store[id].location, planets, ships) == Some(k)
    decreases |people|
  {
    var last := |people| - 1;
    var front := PlacedOn(people[..last], store, planets, ships, k);
    if id in front {
      PlacedOnResolves(people[..last], store, planets, ships, k, id);
    }
  }

  /**
   Nobody is placed on two planets, and a person whose tag resolves nowhere
   is placed on no planet at all.
   */
  lemma PlacedAtMostOnce(people: seq<PersonId>, store: Store, planets: seq<Planet>, ships: seq<Ship>,
                         id: PersonId, k1: nat, k2: nat)
    requires AllIn(people, store)
    ensures k1 != k2 ==>
              !(id in PlacedOn(people, store, planets, ships, k1) && id in PlacedOn(people, store, planets, ships, k2))
    ensures id in store && Resolve(store[id].location, planets, ships).None? ==>
              id !in PlacedOn(people, store, planets, ships, k1)
  {
    if id in PlacedOn(people, store, planets, ships, k1) {
      PlacedOnResolves(people, store, planets, ships, k1, id);
    }
    if id in PlacedOn(people, store, planets, ships, k2) {
      PlacedOnResolves(people, store, planets, ships, k2, id);
    }
  }
}

=== FILE: planet.dfy ===
/**
 A planet of src/space_travel/Planet.java: a name, a fixed day length, its own
 calendar and an ordered population of person ids.
 */
module Planets {
  import opened Calendar
  import opened People

  datatype Planet = Planet(name: string, dayLength: int, time: Time, population: seq<PersonId>)

  function PlanetNames(planets: seq<Planet>): (names: seq<string>)
    ensures |names| == |planets|
    ensures forall k | 0 <= k < |planets| :: names[k] == planets[k].name
  {
    seq(|planets|, k requires 0 <= k < |planets| => planets[k].name)
  }

  /** The planet's day length is the one its calendar counts with. */
  predicate ClockAgrees(p: Planet)
  {
    p.dayLength == p.time.dayLength
  }

  /** The constructor: the calendar starts at hour 0 of the given date, nobody lives there yet. */
  function NewPlanet(name: string, dayLength: int, day: int, month: int, year: int): (p: Planet)
    ensures p.name == name && p.dayLength == dayLength && ClockAgrees(p)
    ensures p.time.hour == 0 && p.time.day == day && p.time.month == month && p.time.year == year
    ensures p.population == []
  {
    Planet(name, dayLength, NewTime(day, month, year, dayLength), [])
  }

  /**
   `passHour`: the calendar moves one hour on, then every resident ages one
   hour and the dead are dropped, survivors keeping their order.
   */
  function PassHour(p: Planet, store: Store): (r: (Planet, Store))
    requires AllIn(p.population, store)
    ensures r.0.name == p.name && r.0.dayLength == p.dayLength
    ensures r.0.time == IncreaseHour(p.time)
    ensures Valid(p.time) ==> Valid(r.0.time) && AbsHour(r.0.time) == AbsHour(p.time) + 1
    ensures r.1.Keys == store.Keys
    ensures forall id <- store.Keys :: r.1[id] == Aged(store[id], multiset(p.population)[id])
    ensures multiset(r.0.population) <= multiset(p.population)
    ensures AllIn(r.0.population, r.1)
  {
    var reaped := AgeAndReap(store, p.population);
    assert AllIn(reaped.1, reaped.0) by {
      forall i | 0 <= i < |reaped.1|
        ensures reaped.1[i] in reaped.0
      {
        assert reaped.1[i] in multiset(p.population);
      }
    }
    (p.(time := IncreaseHour(p.time), population := reaped.1), reaped.0)
  }

  /**
   `passHour` keeps exactly the listings whose person had more hours left than
   their listings on the planet up to and including that one, in order.
   */
  lemma PassHourReapRule(p: Planet, store: Store)
    requires AllIn(p.population, store)
    ensures PassHour(p, store).0.population == Survivors(store, p.population, multiset{})
  {
    ReapRule(store, p.population);
  }

  /**
   A resident listed twice is judged at each listing: with two hours left the
   first listing survives at one hour and the second dies at zero, so the
   dead person stays on the planet.
   */
  lemma DuplicateResidentOutlivesDeath(p: Planet, store: Store, id: PersonId)
    requires id in store && store[id].lifeRemaining == 2
    requires p.population == [id, id]
    ensures PassHour(p, store).0.population == [id]
    ensures !IsAlive(PassHour(p, store).1[id])
  {
    var once := store[id := People.PassHour(store[id])];
    var twice := once[id := People.PassHour(once[id])];
    assert IsAlive(once[id]) && !IsAlive(twice[id]);
    assert [id][1..] == [];
    assert AgeAndReap(twice, []) == (twice, []);
    assert AgeAndReap(once, [id]) == (twice, []);
    assert [id, id][1..] == [id];
    assert AgeAndReap(store, [id, id]).1 == [id] + [];
  }

  /**
   With nobody listed twice, `passHour` ages each resident by exactly one hour
   and keeps exactly the residents still alive, in their old order.
   */
  lemma PassHourKeepsLiving(p: Planet, store: Store)
    requires AllIn(p.population, store)
    requires Distinct(p.population)
    ensures var r := PassHour(p, store);
      && r.0.population == Living(p.population, r.1)
      && (forall id <- p.population :: r.1[id].lifeRemaining == store[id].lifeRemaining - 1)
      && (forall id <- r.0.population :: IsAlive(r.1[id]))
  {
    ReapKeepsLiving(store, p.population);
    AgeAllOnce(store, p.population);
  }

  /**
   With nobody listed twice, `passHour` leaves a repetition-free population of
   living old residents, and does not touch anybody who did not live there.
   */
  lemma PassHourResidents(p: Planet, store: Store)
    requires AllIn(p.population, store)
    requires Distinct(p.population)
    ensures var r := PassHour(p, store);
      && Distinct(r.0.population)
      && (forall id <- r.0.population :: id in p.population && IsAlive(r.1[id]))
      && (forall id <- store.Keys | id !in p.population :: r.1[id] == store[id])
  {
    PassHourKeepsLiving(p, store);
    var r := PassHour(p, store);
    forall id <- r.0.population
      ensures id in p.population
    {
      assert id in multiset(r.0.population);
    }
    SubMultisetDistinct(r.0.population, p.population);
    forall id <- store.Keys | id !in p.population
      ensures r.1[id] == store[id]
    {
      assert multiset(p.population)[id] == 0;
    }
  }

  /**
   A resident listed once with more than one hour to live stays on the planet
   and loses exactly one hour.
   */
  lemma PassHourKeepsSurvivor(p: Planet, store: Store, id: PersonId)
    requires AllIn(p.population, store)
    requires multiset(p.population)[id] == 1
    requires id in store && store[id].lifeRemaining > 1
    ensures id in PassHour(p, store).0.population
    ensures PassHour(p, store).1[id] == Aged(store[id], 1)
  {
    ReapKeepsSurvivor(store, p.population, id);
  }

  /** `addPerson`: appended at the end; calendar and other residents untouched. */
  function AddPerson(p: Planet, id: PersonId): (r: Planet)
    ensures r.population == p.population + [id]
    ensures r.name == p.name && r.dayLength == p.dayLength && r.time == p.time
  {
    p.(population := p.population + [id])
  }

  /** A run of `addPerson` calls, one per listed id, in list order. */
  function AddPeople(p: Planet, ids: seq<PersonId>): (r: Planet)
    ensures r.population == p.population + ids
    ensures r.name == p.name && r.dayLength == p.dayLength && r.time == p.time
    decreases |ids|
  {
    if |ids| == 0 then p
    else
      var last := |ids| - 1;
      assert ids == ids[..last] + [ids[last]];
      AddPerson(AddPeople(p, ids[..last]), ids[last])
  }

  /**
   The single pass of `removePeople` over the population, sorting each
   resident into the boarding list or the list of those who stay.
   */
  function Partition(ids: seq<PersonId>, store: Store, tag: string): (r: (seq<PersonId>, seq<PersonId>))
    requires AllIn(ids, store)
    ensures r.0 == WithTag(ids, store, tag)
    ensures r.1 == WithoutTag(ids, store, tag)
    decreases |ids|
  {
    if |ids| == 0 then ([], [])
    else
      var rest := Partition(ids[1..], store, tag);
      if store[ids[0]].location == tag then ([ids[0]] + rest.0, rest.1)
      else (rest.0, [ids[0]] + rest.1)
  }

  /**
   `removePeople(tag)`: returns the residents tagged `tag` in population
   order and keeps the others, in order; every old resident ends up in
   exactly one of the two lists.
   */
  function RemovePeople(p: Planet, store: Store, tag: string): (r: (Planet, seq<PersonId>))
    requires AllIn(p.population, store)
    ensures r.1 == WithTag(p.population, store, tag)
    ensures r.0 == p.(population := WithoutTag(p.population, store, tag))
    ensures multiset(r.1) + multiset(r.0.population) == multiset(p.population)
    ensures forall id <- r.1 :: store[id].location == tag
    ensures forall id <- r.0.population :: store[id].location != tag
  {
    TagFiltersPartition(p.population, store, tag);
    var parts := Partition(p.population, store, tag);
    (p.(population := parts.1), parts.0)
  }

  /** A second `removePeople` with the same tag finds nobody and changes nothing. */
  lemma RemovePeopleTwice(p: Planet, store: Store, tag: string)
    requires AllIn(p.population, store)
    ensures var first := RemovePeople(p, store, tag);
      AllIn(first.0.population, store) && RemovePeople(first.0, store, tag) == (first.0, [])
  {
    WithoutTagIdempotent(p.population, store, tag);
  }
}

=== FILE: simulation.dfy ===
/**
 The engine of src/space_travel/Simulation.java as a pure state transformer.
 One `Tick` is one pass of the body of the `while (!simulationComplete)` loop
 in `start`, without the console output:

   1. every person of the master list ages one hour (`updateAllPeopleLife`);
   2. every planet, in list order, runs its `passHour` (`updatePlanetStatus`);
   3. every ship not yet destroyed, in list order, runs departure, its own
      `passHour`, then arrival (`updateShipStatus`);
   4. the run is complete when every ship is destroyed or arrived
      (`checkSimulationComplete`), and the hour counter goes up.

 Planets and ships are found by name through `planetMap`, built once at
 construction; the model keeps positions in the planet list there.
 */
module Simulation {
  import opened Wrappers
  import opened Lookup
  import opened Calendar
  import opened People
  import opened Planets
  import opened Spaceships

  datatype Sim = Sim(
    planets: seq<Planet>,
    ships: seq<Ship>,
    allPeople: seq<PersonId>,
    people: Store,
    planetMap: map<string, nat>,
    hourCounter: int,
    complete: bool)

  /**
   `initPlanetMap`: every planet name is a key, and a key leads to the LAST
   planet of the list with that name (a later `put` overwrites an earlier one).
   */
  function InitPlanetMap(planets: seq<Planet>): (m: map<string, nat>)
    ensures forall n :: n in m <==> exists k | 0 <= k < |planets| :: planets[k].name == n
    ensures forall n <- m.Keys :: m[n] < |planets| && planets[m[n]].name == n
    ensures forall n <- m.Keys, k | m[n] < k < |planets| :: planets[k].name != n
  {
    var names := PlanetNames(planets);
    var m := LastIndexMap(names);
    assert forall n :: n in m <==> exists k | 0 <= k < |planets| :: planets[k].name == n by {
      forall n
        ensures n in m <==> exists k | 0 <= k < |planets| :: planets[k].name == n
      {
        if n in m {
          assert planets[m[n]].name == n;
        }
        if exists k | 0 <= k < |planets| :: planets[k].name == n {
          var k :| 0 <= k < |planets| && planets[k].name == n;
          assert names[k] == n;
        }
      }
    }
    m
  }

  /** Every ship is destroyed or arrived. */
  predicate AllTerminal(ships: seq<Ship>)
  {
    forall i | 0 <= i < |ships| :: ships[i].destroyed || ships[i].arrived
  }

  /**
   The state a run keeps: the planet map points at planets with that name,
   every listed id is a known person, and a completed run has every ship in
   a terminal state.
   */
  predicate WellFormed(s: Sim)
  {
    && (forall n <- s.planetMap :: s.planetMap[n] < |s.planets| && s.planets[s.planetMap[n]].name == n)
    && AllIn(s.allPeople, s.people)
    && (forall k | 0 <= k < |s.planets| :: AllIn(s.planets[k].population, s.people))
    && (forall i | 0 <= i < |s.ships| :: AllIn(s.ships[i].passengers, s.people))
    && (s.complete ==> AllTerminal(s.ships))
  }

  /**
   What no step of a run changes: the lists' shapes, the planet map, the
   master list, who exists and their names and ages, planet names and day
   lengths, ship routes; and the terminal flags are never lowered.
   */
  predicate Evolves(s: Sim, r: Sim)
  {
    && |r.planets| == |s.planets|
    && |r.ships| == |s.ships|
    && r.planetMap == s.planetMap
    && r.allPeople == s.allPeople
    && SameIdentities(s.people, r.people)
    && (forall k | 0 <= k < |s.planets| ::
          && r.planets[k].name == s.planets[k].name
          && r.planets[k].dayLength == s.planets[k].dayLength
          && r.planets[k].time.dayLength == s.planets[k].time.dayLength)
    && (forall i | 0 <= i < |s.ships| ::
          && SameRoute(s.ships[i], r.ships[i])
          && (s.ships[i].destroyed ==> r.ships[i].destroyed)
          && (s.ships[i].arrived ==> r.ships[i].arrived))
  }

  /** No planet's calendar moved. */
  predicate ClocksStill(s: Sim, r: Sim)
    requires |r.planets| == |s.planets|
  {
    forall k | 0 <= k < |s.planets| :: r.planets[k].time == s.planets[k].time
  }

  lemma EvolvesTransitive(a: Sim, b: Sim, c: Sim)
    requires Evolves(a, b) && Evolves(b, c)
    ensures Evolves(a, c)
  {
  }

  lemma ClocksStillTransitive(a: Sim, b: Sim, c: Sim)
    requires |b.planets| == |a.planets| && |c.planets| == |b.planets|
    requires ClocksStill(a, b) && ClocksStill(b, c)
    ensures ClocksStill(a, c)
  {
  }

  /** Replacing the store by one with the same people keeps the state well formed. */
  lemma NewPeopleKeepsWellFormed(s: Sim, people: Store)
    requires WellFormed(s)
    requires people.Keys == s.people.Keys
    ensures WellFormed(s.(people := people))
  {
    assert forall id :: id in people <==> id in s.people;
  }

  /** Replacing one planet by one with the same name and day length, listing known people, keeps what a run keeps. */
  lemma SetPlanetKeeps(s: Sim, k: nat, p: Planet)
    requires WellFormed(s) && k < |s.planets|
    requires p.name == s.planets[k].name && p.dayLength == s.planets[k].dayLength
    requires p.time.dayLength == s.planets[k].time.dayLength
    requires AllIn(p.population, s.people)
    ensures var r := s.(planets := s.planets[k := p]);
      && WellFormed(r) && Evolves(s, r)
      && (forall j | 0 <= j < |s.planets| && j != k :: r.planets[j] == s.planets[j])
  {
    var r := s.(planets := s.planets[k := p]);
    forall j | 0 <= j < |r.planets|
      ensures AllIn(r.planets[j].population, r.people)
    {
      if j != k {
        assert r.planets[j] == s.planets[j];
      }
    }
    forall n <- r.planetMap
      ensures r.planetMap[n] < |r.planets| && r.planets[r.planetMap[n]].name == n
    {
      assert s.planets[s.planetMap[n]].name == n;
    }
  }

  /**
   Replacing one ship by one on the same route, listing known people and
   lowering no terminal flag, keeps what a run keeps.
   */
  lemma SetShipKeeps(s: Sim, i: nat, ship: Ship)
    requires WellFormed(s) && i < |s.ships|
    requires SameRoute(s.ships[i], ship)
    requires s.ships[i].destroyed ==> ship.destroyed
    requires s.ships[i].arrived ==> ship.arrived
    requires AllIn(ship.passengers, s.people)
    ensures var r := s.(ships := s.ships[i := ship]);
      && WellFormed(r) && Evolves(s, r)
      && (forall j | 0 <= j < |s.ships| && j != i :: r.ships[j] == s.ships[j])
  {
    var r := s.(ships := s.ships[i := ship]);
    forall j | 0 <= j < |r.ships|
      ensures AllIn(r.ships[j].passengers, r.people)
    {
      if j != i {
        assert r.ships[j] == s.ships[j];
      }
    }
    if s.complete {
      forall j | 0 <= j < |r.ships|
        ensures r.ships[j].destroyed || r.ships[j].arrived
      {
        assert s.ships[j].destroyed || s.ships[j].arrived;
      }
    }
  }

  /** Setting the completion flag and the hour counter keeps what a run keeps. */
  lemma FlagsKeepWellFormed(s: Sim, r: Sim)
    requires WellFormed(s)
    requires r == s.(complete := r.complete, hourCounter := r.hourCounter)
    requires r.complete ==> AllTerminal(r.ships)
    ensures WellFormed(r) && Evolves(s, r)
  {
  }

  /** The constructor: the planet map is built, the clock at zero, the run not complete. */
  function NewSimulation(planets: seq<Planet>, ships: seq<Ship>, allPeople: seq<PersonId>, people: Store): (s: Sim)
    requires AllIn(allPeople, people)
    requires forall k | 0 <= k < |planets| :: AllIn(planets[k].population, people)
    requires forall i | 0 <= i < |ships| :: AllIn(ships[i].passengers, people)
    ensures WellFormed(s)
    ensures s.planets == planets && s.ships == ships && s.allPeople == allPeople && s.people == people
    ensures s.planetMap == InitPlanetMap(planets)
    ensures s.hourCounter == 0 && !s.complete
  {
    Sim(planets, ships, allPeople, people, InitPlanetMap(planets), 0, false)
  }

  // ---------------------------------------------------------------------------
  // Step 1: global aging

  /** `updateAllPeopleLife`: every person of the master list ages one hour per listing. */
  function AgeEveryone(s: Sim): (r: Sim)
    requires WellFormed(s)
    ensures WellFormed(r) && Evolves(s, r)
    ensures r.planets == s.planets && r.ships == s.ships
    ensures r.hourCounter == s.hourCounter && r.complete == s.complete
    ensures forall id <- s.people.Keys :: r.people[id] == Aged(s.people[id], multiset(s.allPeople)[id])
  {
    s.(people := AgeAll(s.people, s.allPeople))
  }

  // ---------------------------------------------------------------------------
  // Step 2: planets

  /** One planet's `passHour` inside the simulation state. */
  function PlanetHour(s: Sim, k: nat): (r: Sim)
    requires WellFormed(s)
    requires k < |s.planets|
    ensures WellFormed(r) && Evolves(s, r)
    ensures r.ships == s.ships && r.hourCounter == s.hourCounter && r.complete == s.complete
    ensures r.planets[k].time == IncreaseHour(s.planets[k].time)
    ensures multiset(r.planets[k].population) <= multiset(s.planets[k].population)
    ensures r.planets[k] == Planets.PassHour(s.planets[k], s.people).0
    ensures r.people == Planets.PassHour(s.planets[k], s.people).1
    ensures forall j | 0 <= j < |s.planets| && j != k :: r.planets[j] == s.planets[j]
    ensures forall id <- s.people.Keys ::
              r.people[id] == Aged(s.people[id], multiset(s.planets[k].population)[id])
  {
    var stepped := Planets.PassHour(s.planets[k], s.people);
    var mid := s.(people := stepped.1);
    NewPeopleKeepsWellFormed(s, stepped.1);
    var r := mid.(planets := s.planets[k := stepped.0]);
    assert forall j | 0 <= j < |r.planets| :: AllIn(r.planets[j].population, r.people) by {
      forall j | 0 <= j < |r.planets|
        ensures AllIn(r.planets[j].population, r.people)
      {
        if j != k {
          assert r.planets[j] == mid.planets[j];
        }
      }
    }
    r
  }

  /** How often `id` is listed on the planets `0 .. k-1` together. */
  function Listings(planets: seq<Planet>, k: nat, id: PersonId): nat
    requires k <= |planets|
    decreases k
  {
    if k == 0 then 0 else Listings(planets, k - 1, id) + multiset(planets[k - 1].population)[id]
  }

  /** `updatePlanetStatus` after its first `k` iterations: planets `0 .. k-1` have run `passHour`. */
  function UpdatePlanetsUpTo(s: Sim, k: nat): (r: Sim)
    requires WellFormed(s)
    requires k <= |s.planets|
    ensures WellFormed(r) && Evolves(s, r)
    ensures r.ships == s.ships && r.hourCounter == s.hourCounter && r.complete == s.complete
    ensures forall j | k <= j < |s.planets| :: r.planets[j] == s.planets[j]
    ensures forall j | 0 <= j < k :: r.planets[j].time == IncreaseHour(s.planets[j].time)
    ensures forall j | 0 <= j < k ::
              multiset(r.planets[j].population) <= multiset(s.planets[j].population)
    decreases k
  {
    if k == 0 then s
    else
      var prev := UpdatePlanetsUpTo(s, k - 1);
      var r := PlanetHour(prev, k - 1);
      EvolvesTransitive(s, prev, r);
      assert forall j | 0 <= j < k ::
          && r.planets[j].time == IncreaseHour(s.planets[j].time)
          && multiset(r.planets[j].population) <= multiset(s.planets[j].population) by {
        forall j | 0 <= j < k
          ensures r.planets[j].time == IncreaseHour(s.planets[j].time)
          ensures multiset(r.planets[j].population) <= multiset(s.planets[j].population)
        {
          if j == k - 1 {
            assert prev.planets[j] == s.planets[j];
          }
        }
      }
      r
  }

  /** `updatePlanetStatus`: every planet's calendar one hour on, residents aged and reaped. */
  function UpdatePlanets(s: Sim): (r: Sim)
    requires WellFormed(s)
    ensures WellFormed(r) && Evolves(s, r)
    ensures r.ships == s.ships && r.hourCounter == s.hourCounter && r.complete == s.complete
    ensures forall j | 0 <= j < |s.planets| :: r.planets[j].time == IncreaseHour(s.planets[j].time)
    ensures forall j | 0 <= j < |s.planets| ::
              multiset(r.planets[j].population) <= multiset(s.planets[j].population)
    ensures forall id <- s.people.Keys ::
              r.people[id] == Aged(s.people[id], Listings(s.planets, |s.planets|, id))
  {
    var r := UpdatePlanetsUpTo(s, |s.planets|);
    assert forall id <- s.people.Keys :: r.people[id] == Aged(s.people[id], Listings(s.planets, |s.planets|, id)) by {
      forall id <- s.people.Keys
        ensures r.people[id] == Aged(s.people[id], Listings(s.planets, |s.planets|, id))
      {
        UpdatePlanetsAges(s, |s.planets|, id);
      }
    }
    r
  }

  /** After `k` iterations of `updatePlanetStatus` a person has lost one hour per listing on planets `0 .. k-1`. */
  lemma {:induction false} UpdatePlanetsAges(s: Sim, k: nat, id: PersonId)
    requires WellFormed(s)
    requires k <= |s.planets|
    requires id in s.people
    ensures UpdatePlanetsUpTo(s, k).people[id] == Aged(s.people[id], Listings(s.planets, k, id))
    decreases k
  {
    if k > 0 {
      var n: nat := k - 1;
      UpdatePlanetsAges(s, n, id);
      UpdatePlanetsUnfold(s, n);
      UpdatePlanetsAgesStep(s, n, id);
    }
  }

  lemma UpdatePlanetsUnfold(s: Sim, n: nat)
    requires WellFormed(s)
    requires n < |s.planets|
    ensures UpdatePlanetsUpTo(s, n + 1) == PlanetHour(UpdatePlanetsUpTo(s, n), n)
  {
  }

  /** Iteration `n` of `updatePlanetStatus` ages `id` once per listing on planet `n`. */
  lemma UpdatePlanetsAgesStep(s: Sim, n: nat, id: PersonId)
    requires WellFormed(s)
    requires n < |s.planets|
    requires id in s.people
    requires UpdatePlanetsUpTo(s, n).people[id] == Aged(s.people[id], Listings(s.planets, n, id))
    ensures PlanetHour(UpdatePlanetsUpTo(s, n), n).people[id] == Aged(s.people[id], Listings(s.planets, n + 1, id))
  {
    var prev := UpdatePlanetsUpTo(s, n);
    assert prev.planets[n] == s.planets[n];
    assert id in prev.people;
  }


  // ---------------------------------------------------------------------------
  // Step 3: ships

  /** The guard of `processShipDeparture`; `arrived` is not part of it. */
  predicate DepartureFires(s: Sim, i: nat)
    requires WellFormed(s)
    requires i < |s.ships|
  {
    var ship := s.ships[i];
    && !ship.inTransit
    && !ship.destroyed
    && ship.departurePlanet in s.planetMap
    && DateMatches(s.planets[s.planetMap[ship.departurePlanet]].time, ship.departureDate)
  }

  /**
   The firing branch of `processShipDeparture`: the residents of planet `k`
   tagged with the ship's name leave the planet and are appended, in order,
   to the passenger list by one `addPassenger` each; the boarders are also
   remembered as `originalPassengers`;
   then `startJourney`.
   */
  function Board(s: Sim, i: nat, k: nat): (r: Sim)
    requires WellFormed(s)
    requires i < |s.ships| && k < |s.planets|
    ensures WellFormed(r) && Evolves(s, r) && ClocksStill(s, r)
    ensures r.people == s.people && r.hourCounter == s.hourCounter && r.complete == s.complete
    ensures forall j | 0 <= j < |s.ships| && j != i :: r.ships[j] == s.ships[j]
    ensures forall j | 0 <= j < |s.planets| && j != k :: r.planets[j] == s.planets[j]
    ensures r.planets[k].population == WithoutTag(s.planets[k].population, s.people, s.ships[i].name)
    ensures r.ships[i].passengers
            == s.ships[i].passengers + WithTag(s.planets[k].population, s.people, s.ships[i].name)
    ensures r.ships[i].inTransit
    ensures r.ships[i].remainingTravelTime == s.ships[i].remainingTravelTime
    ensures r.ships[i].destroyed == s.ships[i].destroyed && r.ships[i].arrived == s.ships[i].arrived
  {
    var ship := s.ships[i];
    var removed := RemovePeople(s.planets[k], s.people, ship.name);
    var boarding := removed.1;
    AllInConcat(ship.passengers, boarding, s.people);
    var boarded := StartJourney(AddPassengers(ship, boarding).(originalPassengers := Some(boarding)));
    var left := s.(planets := s.planets[k := removed.0]);
    SetPlanetKeeps(s, k, removed.0);
    var r := left.(ships := s.ships[i := boarded]);
    SetShipKeeps(left, i, boarded);
    EvolvesTransitive(s, left, r);
    r
  }

  /**
   `processShipDeparture`: when the guard holds, the departure planet's
   residents tagged with the ship's name move, in order, to the end of the
   passenger list and the ship is in transit; otherwise nothing changes.
   */
  function ProcessDeparture(s: Sim, i: nat): (r: Sim)
    requires WellFormed(s)
    requires i < |s.ships|
    ensures WellFormed(r) && Evolves(s, r) && ClocksStill(s, r)
    ensures r.people == s.people && r.hourCounter == s.hourCounter && r.complete == s.complete
    ensures forall j | 0 <= j < |s.ships| && j != i :: r.ships[j] == s.ships[j]
    ensures !DepartureFires(s, i) ==> r == s
    ensures DepartureFires(s, i) ==> r == Board(s, i, s.planetMap[s.ships[i].departurePlanet])
  {
    var ship := s.ships[i];
    if ship.inTransit || ship.destroyed then s
    else if ship.departurePlanet !in s.planetMap then s
    else
      var k := s.planetMap[ship.departurePlanet];
      if !DateMatches(s.planets[k].time, ship.departureDate) then s
      else Board(s, i, k)
  }

  /** The ship's own `passHour` inside the simulation state. */
  function ShipHour(s: Sim, i: nat): (r: Sim)
    requires WellFormed(s)
    requires i < |s.ships|
    ensures WellFormed(r) && Evolves(s, r) && ClocksStill(s, r)
    ensures r.planets == s.planets && r.hourCounter == s.hourCounter && r.complete == s.complete
    ensures r.ships[i] == Spaceships.PassHour(s.ships[i], s.people).0
    ensures r.people == Spaceships.PassHour(s.ships[i], s.people).1
    ensures forall j | 0 <= j < |s.ships| && j != i :: r.ships[j] == s.ships[j]
  {
    var stepped := Spaceships.PassHour(s.ships[i], s.people);
    var mid := s.(people := stepped.1);
    NewPeopleKeepsWellFormed(s, stepped.1);
    var r := mid.(ships := s.ships[i := stepped.0]);
    assert forall j | 0 <= j < |r.ships| :: AllIn(r.ships[j].passengers, r.people) by {
      forall j | 0 <= j < |r.ships|
        ensures AllIn(r.ships[j].passengers, r.people)
      {
        if j != i {
          assert r.ships[j] == mid.ships[j];
        }
      }
    }
    r
  }

  /** The guard of `processShipArrival`; `destroyed` is not part of it. */
  predicate ArrivalFires(s: Sim, i: nat)
    requires i < |s.ships|
  {
    IsTravelComplete(s.ships[i]) && s.ships[i].destinationPlanet in s.planetMap
  }

  /**
   The firing branch of `processShipArrival` at planet `k`: every passenger is
   tagged with the planet's name and appended, in order, to its population;
   the arrival date is recorded and the ship is arrived. The passenger list
   is kept as it was.
   */
  function Land(s: Sim, i: nat, k: nat): (r: Sim)
    requires WellFormed(s)
    requires i < |s.ships| && k < |s.planets|
    ensures WellFormed(r) && Evolves(s, r) && ClocksStill(s, r)
    ensures r.hourCounter == s.hourCounter && r.complete == s.complete
    ensures forall j | 0 <= j < |s.ships| && j != i :: r.ships[j] == s.ships[j]
    ensures forall j | 0 <= j < |s.planets| && j != k :: r.planets[j] == s.planets[j]
    ensures r.planets[k].population == s.planets[k].population + s.ships[i].passengers
    ensures r.ships[i].arrived && !r.ships[i].inTransit
    ensures r.ships[i].passengers == s.ships[i].passengers
    ensures r.ships[i].destroyed == s.ships[i].destroyed
    ensures r.ships[i].remainingTravelTime == s.ships[i].remainingTravelTime
    ensures forall id <- s.people.Keys ::
              r.people[id] == (if id in s.ships[i].passengers then SetLocation(s.people[id], s.planets[k].name)
                               else s.people[id])
  {
    var ship := s.ships[i];
    var planet := s.planets[k];
    var people := Relocate(s.people, ship.passengers, planet.name);
    var landed := AddPeople(planet, ship.passengers);
    AllInConcat(planet.population, ship.passengers, s.people);
    var done := EndJourney(ship.(actualArrivalDate := Some(GetDate(planet.time))));
    var mid := s.(people := people);
    NewPeopleKeepsWellFormed(s, people);
    var settled := mid.(planets := s.planets[k := landed]);
    SetPlanetKeeps(mid, k, landed);
    var r := settled.(ships := s.ships[i := done]);
    SetShipKeeps(settled, i, done);
    EvolvesTransitive(s, mid, settled);
    EvolvesTransitive(s, settled, r);
    r
  }

  /**
   `processShipArrival`: when the guard holds, the passengers land on the
   destination planet and the ship is arrived; otherwise nothing changes.
   */
  function ProcessArrival(s: Sim, i: nat): (r: Sim)
    requires WellFormed(s)
    requires i < |s.ships|
    ensures WellFormed(r) && Evolves(s, r) && ClocksStill(s, r)
    ensures r.hourCounter == s.hourCounter && r.complete == s.complete
    ensures forall j | 0 <= j < |s.ships| && j != i :: r.ships[j] == s.ships[j]
    ensures !ArrivalFires(s, i) ==> r == s
    ensures ArrivalFires(s, i) ==> r == Land(s, i, s.planetMap[s.ships[i].destinationPlanet])
  {
    var ship := s.ships[i];
    if !IsTravelComplete(ship) then s
    else if ship.destinationPlanet !in s.planetMap then s
    else Land(s, i, s.planetMap[ship.destinationPlanet])
  }

  /** The body of the `updateShipStatus` loop for one ship. */
  function ShipStep(s: Sim, i: nat): (r: Sim)
    requires WellFormed(s)
    requires i < |s.ships|
    ensures WellFormed(r) && Evolves(s, r) && ClocksStill(s, r)
    ensures r.hourCounter == s.hourCounter && r.complete == s.complete
    ensures forall j | 0 <= j < |s.ships| && j != i :: r.ships[j] == s.ships[j]
    ensures s.ships[i].destroyed ==> r == s
  {
    if s.ships[i].destroyed then s
    else
      var departed := ProcessDeparture(s, i);
      var flown := ShipHour(departed, i);
      var r := ProcessArrival(flown, i);
      EvolvesTransitive(s, departed, flown);
      EvolvesTransitive(s, flown, r);
      r
  }

  /**
   What `updateShipStatus` keeps after its first `i` turns: what a run keeps,
   every calendar, the ships still to come, and every destroyed ship.
   */
  predicate ShipLoopInvariant(s: Sim, r: Sim, i: nat)
  {
    && WellFormed(r) && Evolves(s, r) && ClocksStill(s, r)
    && r.hourCounter == s.hourCounter && r.complete == s.complete
    && (forall j | i <= j < |s.ships| :: r.ships[j] == s.ships[j])
    && (forall j | 0 <= j < i && j < |s.ships| && s.ships[j].destroyed :: r.ships[j] == s.ships[j])
  }

  /** The `i`-th turn of `updateShipStatus` keeps its invariant. */
  lemma ShipTurnKeepsInvariant(s: Sim, prev: Sim, i: nat)
    requires WellFormed(s) && 0 < i <= |s.ships|
    requires ShipLoopInvariant(s, prev, i - 1)
    ensures ShipLoopInvariant(s, ShipStep(prev, i - 1), i)
  {
    var r := ShipStep(prev, i - 1);
    EvolvesTransitive(s, prev, r);
    ClocksStillTransitive(s, prev, r);
    forall j | i <= j < |s.ships|
      ensures r.ships[j] == s.ships[j]
    {
      assert r.ships[j] == prev.ships[j];
    }
    forall j | 0 <= j < i && j < |s.ships| && s.ships[j].destroyed
      ensures r.ships[j] == s.ships[j]
    {
      assert prev.ships[j] == s.ships[j];
    }
  }

  /** `updateShipStatus` after its first `i` iterations: ships `0 .. i-1` have taken their turn. */
  function UpdateShipsUpTo(s: Sim, i: nat): (r: Sim)
    requires WellFormed(s)
    requires i <= |s.ships|
    ensures ShipLoopInvariant(s, r, i)
    decreases i
  {
    if i == 0 then s
    else
      var prev := UpdateShipsUpTo(s, i - 1);
      ShipTurnKeepsInvariant(s, prev, i);
      ShipStep(prev, i - 1)
  }

  /** `updateShipStatus`: every ship not yet destroyed takes its turn, in list order. */
  function UpdateShips(s: Sim): (r: Sim)
    requires WellFormed(s)
    ensures WellFormed(r) && Evolves(s, r) && ClocksStill(s, r)
    ensures r.hourCounter == s.hourCounter && r.complete == s.complete
    ensures forall j | 0 <= j < |s.ships| && s.ships[j].destroyed :: r.ships[j] == s.ships[j]
  {
    UpdateShipsUpTo(s, |s.ships|)
  }

  // ---------------------------------------------------------------------------
  // Step 4 and the whole tick

  /** `checkSimulationComplete`. */
  function CheckComplete(s: Sim): (r: Sim)
    requires WellFormed(s)
    ensures WellFormed(r)
    ensures r == s.(complete := r.complete)
    ensures r.complete <==> forall i | 0 <= i < |s.ships| :: s.ships[i].destroyed || s.ships[i].arrived
  {
    s.(complete := AllTerminal(s.ships))
  }

  /**
   One hour of the run: global aging, planets, ships, completion check, and
   the hour counter one up.
   */
  function Tick(s: Sim): (r: Sim)
    requires WellFormed(s)
    ensures WellFormed(r) && Evolves(s, r)
    ensures r.hourCounter == s.hourCounter + 1
    ensures r.complete <==> forall i | 0 <= i < |r.ships| :: r.ships[i].destroyed || r.ships[i].arrived
  {
    var aged := AgeEveryone(s);
    var planetsDone := UpdatePlanets(aged);
    var shipsDone := UpdateShips(planetsDone);
    var checked := CheckComplete(shipsDone);
    var r := checked.(hourCounter := checked.hourCounter + 1);
    EvolvesTransitive(s, aged, planetsDone);
    EvolvesTransitive(s, planetsDone, shipsDone);
    FlagsKeepWellFormed(shipsDone, r);
    r
  }

  /** A tick moves every planet's calendar exactly one hour on. */
  lemma TickMovesClocks(s: Sim, k: nat)
    requires WellFormed(s) && k < |s.planets|
    ensures Tick(s).planets[k].time == IncreaseHour(s.planets[k].time)
  {
    var planetsDone := UpdatePlanets(AgeEveryone(s));
    assert UpdateShips(planetsDone).planets[k].time == planetsDone.planets[k].time;
  }

  /** A tick leaves a destroyed ship exactly as it is. */
  lemma TickKeepsDestroyed(s: Sim, i: nat)
    requires WellFormed(s) && i < |s.ships| && s.ships[i].destroyed
    ensures Tick(s).ships[i] == s.ships[i]
  {
    var planetsDone := UpdatePlanets(AgeEveryone(s));
    assert planetsDone.ships[i] == s.ships[i];
  }

  /**
   The `start` loop after at most `fuel` turns: a turn runs only while the
   run is not complete.
   */
  function Run(s: Sim, fuel: nat): (r: Sim)
    requires WellFormed(s)
    ensures WellFormed(r) && Evolves(s, r)
    ensures s.hourCounter <= r.hourCounter <= s.hourCounter + fuel
    ensures r.complete || r.hourCounter == s.hourCounter + fuel
    decreases fuel
  {
    if fuel == 0 then s
    else
      var prev := Run(s, fuel - 1);
      if prev.complete then prev
      else
        var r := Tick(prev);
        EvolvesTransitive(s, prev, r);
        r
  }
}

=== FILE: spaceship.dfy ===
/**
 A spaceship of src/space_travel/Spaceship.java. Its state is the three
 independent flags of the Java class (`inTransit`, `destroyed`, `arrived`),
 a countdown and a passenger list. `originalPassengers` and
 `actualArrivalDate` are written by the simulation and only read by its
 console display; they start out absent (`null` in Java).
 */
module Spaceships {
  import opened Wrappers
  import opened People

  datatype Ship = Ship(
    name: string,
    departurePlanet: string,
    destinationPlanet: string,
    departureDate: string,
    travelDuration: int,
    remainingTravelTime: int,
    passengers: seq<PersonId>,
    inTransit: bool,
    destroyed: bool,
    arrived: bool,
    originalPassengers: Option<seq<PersonId>>,
    actualArrivalDate: Option<string>)

  function ShipNames(ships: seq<Ship>): (names: seq<string>)
    ensures |names| == |ships|
    ensures forall i | 0 <= i < |ships| :: names[i] == ships[i].name
  {
    seq(|ships|, i requires 0 <= i < |ships| => ships[i].name)
  }

  /** Name, route, schedule and duration never change after construction. */
  predicate SameRoute(s: Ship, r: Ship)
  {
    && r.name == s.name
    && r.departurePlanet == s.departurePlanet
    && r.destinationPlanet == s.destinationPlanet
    && r.departureDate == s.departureDate
    && r.travelDuration == s.travelDuration
  }

  /** The constructor: the full duration still to go, nobody aboard, every flag down. */
  function NewShip(name: string, departurePlanet: string, destinationPlanet: string,
                   departureDate: string, travelDuration: int): (s: Ship)
    ensures s.name == name && s.departurePlanet == departurePlanet
    ensures s.destinationPlanet == destinationPlanet && s.departureDate == departureDate
    ensures s.travelDuration == travelDuration && s.remainingTravelTime == travelDuration
    ensures s.passengers == []
    ensures !s.inTransit && !s.destroyed && !s.arrived
  {
    Ship(name, departurePlanet, destinationPlanet, departureDate, travelDuration, travelDuration,
         [], false, false, false, None, None)
  }

  /** `addPassenger`: appended at the end, nothing else changes. */
  function AddPassenger(s: Ship, id: PersonId): (r: Ship)
    ensures r.passengers == s.passengers + [id]
    ensures r == s.(passengers := r.passengers)
  {
    s.(passengers := s.passengers + [id])
  }

  /** A run of `addPassenger` calls, one per listed id, in list order. */
  function AddPassengers(s: Ship, ids: seq<PersonId>): (r: Ship)
    ensures r.passengers == s.passengers + ids
    ensures r == s.(passengers := r.passengers)
    decreases |ids|
  {
    if |ids| == 0 then s
    else
      var last := |ids| - 1;
      assert ids == ids[..last] + [ids[last]];
      AddPassenger(AddPassengers(s, ids[..last]), ids[last])
  }

  /** The ship's `passHour` does anything at all only in this state. */
  predicate Active(s: Ship)
  {
    s.inTransit && !s.destroyed
  }

  /**
   `passHour`: when active, one hour less to go, every passenger ages one hour
   and the dead are dropped; a passenger list that was non-empty and is now
   empty destroys the ship. Otherwise nothing happens.
   */
  function PassHour(s: Ship, store: Store): (r: (Ship, Store))
    requires AllIn(s.passengers, store)
    ensures !Active(s) ==> r == (s, store)
    ensures Active(s) ==>
      && r.0.remainingTravelTime == s.remainingTravelTime - 1
      && (r.0.destroyed <==> |s.passengers| > 0 && |r.0.passengers| == 0)
      && r.0 == s.(remainingTravelTime := r.0.remainingTravelTime,
                   passengers := r.0.passengers, destroyed := r.0.destroyed)
    ensures Active(s) ==> r.1.Keys == store.Keys
    ensures Active(s) ==> forall id <- store.Keys :: r.1[id] == Aged(store[id], multiset(s.passengers)[id])
    ensures multiset(r.0.passengers) <= multiset(s.passengers)
    ensures s.destroyed ==> r.0.destroyed
    ensures AllIn(r.0.passengers, r.1)
  {
    if !Active(s) then (s, store)
    else
      var reaped := AgeAndReap(store, s.passengers);
      assert AllIn(reaped.1, reaped.0) by {
        forall i | 0 <= i < |reaped.1|
          ensures reaped.1[i] in reaped.0
        {
          assert reaped.1[i] in multiset(s.passengers);
        }
      }
      var hadPassengers := |s.passengers| > 0;
      var lost := |reaped.1| == 0 && hadPassengers;
      (s.(remainingTravelTime := s.remainingTravelTime - 1,
          passengers := reaped.1,
          destroyed := s.destroyed || lost),
       reaped.0)
  }

  /**
   An active ship's `passHour` keeps exactly the listings whose passenger had
   more hours left than their listings aboard up to and including that one, in
   order.
   */
  lemma PassHourReapRule(s: Ship, store: Store)
    requires AllIn(s.passengers, store)
    requires Active(s)
    ensures PassHour(s, store).0.passengers == Survivors(store, s.passengers, multiset{})
  {
    ReapRule(store, s.passengers);
  }

  /**
   With nobody aboard twice, an active ship's `passHour` ages each passenger
   by exactly one hour and keeps exactly those still alive, in order.
   */
  lemma PassHourKeepsLiving(s: Ship, store: Store)
    requires AllIn(s.passengers, store)
    requires Distinct(s.passengers)
    requires Active(s)
    ensures var r := PassHour(s, store);
      && r.0.passengers == Living(s.passengers, r.1)
      && (forall id <- s.passengers :: r.1[id].lifeRemaining == store[id].lifeRemaining - 1)
      && (forall id <- r.0.passengers :: IsAlive(r.1[id]))
  {
    ReapKeepsLiving(store, s.passengers);
    AgeAllOnce(store, s.passengers);
  }

  /**
   A passenger listed once with more than one hour to live stays aboard an
   active ship and loses exactly one hour.
   */
  lemma PassHourKeepsSurvivor(s: Ship, store: Store, id: PersonId)
    requires AllIn(s.passengers, store)
    requires Active(s)
    requires multiset(s.passengers)[id] == 1
    requires id in store && store[id].lifeRemaining > 1
    ensures id in PassHour(s, store).0.passengers
    ensures PassHour(s, store).1[id] == Aged(store[id], 1)
  {
    ReapKeepsSurvivor(store, s.passengers, id);
  }

  /**
   An active ship whose passengers all have at most one hour left loses them
   all in its `passHour` and is destroyed.
   */
  lemma PassHourLosesEveryone(s: Ship, store: Store)
    requires AllIn(s.passengers, store)
    requires Active(s) && |s.passengers| > 0
    requires forall id <- s.passengers :: store[id].lifeRemaining <= 1
    ensures PassHour(s, store).0.passengers == []
    ensures PassHour(s, store).0.destroyed
  {
    ReapKeepsNobody(store, s.passengers);
  }

  /** A ship with nobody aboard is never destroyed by `passHour`. */
  lemma EmptyShipSurvives(s: Ship, store: Store)
    requires !s.destroyed
    requires s.passengers == []
    ensures !PassHour(s, store).0.destroyed
  {
  }

  /** `isTravelComplete`. */
  predicate IsTravelComplete(s: Ship)
  {
    s.inTransit && s.remainingTravelTime <= 0
  }

  /**
   `passHour` counts down to completion: an active ship is complete after its
   hour exactly when at most one hour was left, and a ship not in transit is
   never complete, however long it waits.
   */
  lemma PassHourCompletesTravel(s: Ship, store: Store)
    requires AllIn(s.passengers, store)
    ensures Active(s) ==> (IsTravelComplete(PassHour(s, store).0) <==> s.remainingTravelTime <= 1)
    ensures !s.inTransit ==> !IsTravelComplete(PassHour(s, store).0)
  {
  }

  /** `startJourney`: raises `inTransit` only; the countdown is not reset. */
  function StartJourney(s: Ship): (r: Ship)
    ensures r.inTransit
    ensures SameRoute(s, r) && r.remainingTravelTime == s.remainingTravelTime
    ensures r.passengers == s.passengers && r.destroyed == s.destroyed && r.arrived == s.arrived
    ensures r.originalPassengers == s.originalPassengers && r.actualArrivalDate == s.actualArrivalDate
  {
    s.(inTransit := true)
  }

  /** `endJourney`: lowers `inTransit`, raises `arrived`; the passengers stay aboard. */
  function EndJourney(s: Ship): (r: Ship)
    ensures !r.inTransit && r.arrived
    ensures SameRoute(s, r) && r.remainingTravelTime == s.remainingTravelTime
    ensures r.passengers == s.passengers && r.destroyed == s.destroyed
    ensures r.originalPassengers == s.originalPassengers && r.actualArrivalDate == s.actualArrivalDate
  {
    s.(inTransit := false, arrived := true)
  }
}

=== FILE: tick_facts.dfy ===
/**
 Properties of whole steps of the simulation in src/space_travel/Simulation.java:
 the quirks of the tick (a stranded ship keeps the run going, a destroyed
 ship is frozen, a ship can be destroyed and arrived at once, an arrived
 ship can leave again, a boarding passenger loses three hours on the
 departure tick) and the planets-before-ships order that keeps the dead
 from boarding.
 */
module TickFacts {
  import opened People
  import opened Planets
  import opened Spaceships
  import opened Simulation

  // ---------------------------------------------------------------------------
  // Completion

  /** One more turn of a run without ships, once complete, changes nothing. */
  lemma NoShipsTurn(s: Sim, n: nat)
    requires WellFormed(s)
    requires |s.ships| == 0 && !s.complete
    requires Run(s, n + 1) == Tick(s)
    ensures Run(s, n + 2) == Tick(s)
  {
  }

  /** Without ships the run is complete after its first tick, and stays as that tick left it. */
  lemma {:induction false} NoShipsCompleteAfterOneTick(s: Sim, fuel: nat)
    requires WellFormed(s)
    requires |s.ships| == 0 && !s.complete && fuel >= 1
    ensures Tick(s).complete
    ensures Run(s, fuel) == Tick(s)
    decreases fuel
  {
    if fuel > 1 {
      var n: nat := fuel - 2;
      NoShipsCompleteAfterOneTick(s, n + 1);
      NoShipsTurn(s, n);
    }
  }

  /**
   A ship in transit whose destination is not a planet of the map, and
   which has not arrived.
   */
  predicate Stranded(s: Sim, i: nat)
  {
    && i < |s.ships|
    && s.ships[i].inTransit
    && !s.ships[i].arrived
    && s.ships[i].destinationPlanet !in s.planetMap
  }

  lemma ShipStepKeepsStranded(s: Sim, i: nat, j: nat)
    requires WellFormed(s) && i < |s.ships|
    requires Stranded(s, j)
    ensures Stranded(ShipStep(s, i), j)
  {
    if i == j && !s.ships[i].destroyed {
      var departed := ProcessDeparture(s, i);
      assert departed == s;
      var flown := ShipHour(departed, i);
      assert flown.ships[i].inTransit && !flown.ships[i].arrived;
      assert !ArrivalFires(flown, i);
    }
  }

  lemma ShipTurnKeepsStranded(s: Sim, i: nat, j: nat)
    requires WellFormed(s) && 0 < i <= |s.ships|
    requires Stranded(UpdateShipsUpTo(s, i - 1), j)
    ensures Stranded(UpdateShipsUpTo(s, i), j)
  {
    ShipStepKeepsStranded(UpdateShipsUpTo(s, i - 1), i - 1, j);
  }

  lemma {:induction false} UpdateShipsUpToKeepsStranded(s: Sim, i: nat, j: nat)
    requires WellFormed(s) && i <= |s.ships|
    requires Stranded(s, j)
    ensures Stranded(UpdateShipsUpTo(s, i), j)
    decreases i
  {
    if i > 0 {
      UpdateShipsUpToKeepsStranded(s, i - 1, j);
      ShipTurnKeepsStranded(s, i, j);
    }
  }

  /**
   A stranded ship stays stranded through a tick, and the tick can report the
   run complete only if that ship is destroyed.
   */
  lemma TickKeepsStranded(s: Sim, j: nat)
    requires WellFormed(s)
    requires Stranded(s, j)
    ensures Stranded(Tick(s), j)
    ensures Tick(s).complete ==> Tick(s).ships[j].destroyed
  {
    var planetsDone := UpdatePlanets(AgeEveryone(s));
    UpdateShipsUpToKeepsStranded(planetsDone, |planetsDone.ships|, j);
  }

  /** Stranded, and holding the run open unless destroyed. */
  predicate StrandedForGood(s: Sim, j: nat)
  {
    Stranded(s, j) && (s.complete ==> s.ships[j].destroyed)
  }

  /** One more turn of the `start` loop keeps a ship stranded for good. */
  lemma TurnKeepsStranded(s: Sim, n: nat, j: nat)
    requires WellFormed(s)
    requires StrandedForGood(Run(s, n), j)
    ensures StrandedForGood(Run(s, n + 1), j)
  {
    var prev := Run(s, n);
    if !prev.complete {
      TickKeepsStranded(prev, j);
    }
  }

  /**
   However many ticks run, a ship heading for a planet that does not exist
   never arrives, and the run is never complete unless that ship is
   destroyed.
   */
  lemma {:induction false} RunKeepsStranded(s: Sim, fuel: nat, j: nat)
    requires WellFormed(s)
    requires Stranded(s, j)
    ensures StrandedForGood(Run(s, fuel), j)
    decreases fuel
  {
    if fuel > 0 {
      var n: nat := fuel - 1;
      RunKeepsStranded(s, n, j);
      TurnKeepsStranded(s, n, j);
    }
  }

  /** One more turn of the `start` loop leaves a destroyed ship as it was. */
  lemma TurnKeepsDestroyed(s: Sim, n: nat, i: nat)
    requires WellFormed(s) && i < |s.ships| && s.ships[i].destroyed
    requires Run(s, n).ships[i] == s.ships[i]
    ensures Run(s, n + 1).ships[i] == s.ships[i]
  {
    var prev := Run(s, n);
    if !prev.complete {
      TickKeepsDestroyed(prev, i);
    }
  }

  /** A destroyed ship is left exactly as it is by every later tick. */
  lemma {:induction false} RunKeepsDestroyed(s: Sim, fuel: nat, i: nat)
    requires WellFormed(s)
    requires i < |s.ships| && s.ships[i].destroyed
    ensures Run(s, fuel).ships[i] == s.ships[i]
    decreases fuel
  {
    if fuel > 0 {
      var n: nat := fuel - 1;
      RunKeepsDestroyed(s, n, i);
      TurnKeepsDestroyed(s, n, i);
    }
  }

  // ---------------------------------------------------------------------------
  // One ship's turn

  /**
   A ship that departs with at most one hour left to go (a ship of duration 0
   that never flew, say) also arrives in the same turn when its destination
   exists.
   */
  lemma DepartAndArriveSameTurn(s: Sim, i: nat)
    requires WellFormed(s) && i < |s.ships|
    requires DepartureFires(s, i)
    requires s.ships[i].remainingTravelTime <= 1
    requires s.ships[i].destinationPlanet in s.planetMap
    ensures ShipStep(s, i).ships[i].arrived && !ShipStep(s, i).ships[i].inTransit
    ensures ShipStep(s, i).ships[i].remainingTravelTime == s.ships[i].remainingTravelTime - 1
  {
    var departed := ProcessDeparture(s, i);
    var flown := ShipHour(departed, i);
    assert flown.ships[i].inTransit;
    assert ArrivalFires(flown, i);
  }

  /** An arrival retags its passengers but takes nobody's time. */
  lemma ArrivalKeepsLife(s: Sim, i: nat, id: PersonId)
    requires WellFormed(s) && i < |s.ships|
    requires id in s.people
    ensures ProcessArrival(s, i).people[id].lifeRemaining == s.people[id].lifeRemaining
  {
  }

  /** Boarding, then the ship's `passHour`: a boarder listed once aboard ages one hour. */
  lemma BoardThenFly(s: Sim, i: nat, id: PersonId)
    requires WellFormed(s) && i < |s.ships|
    requires DepartureFires(s, i)
    requires var k := s.planetMap[s.ships[i].departurePlanet];
      var boarders := WithTag(s.planets[k].population, s.people, s.ships[i].name);
      id in boarders && multiset(s.ships[i].passengers + boarders)[id] == 1
    ensures id in s.people
    ensures ShipHour(ProcessDeparture(s, i), i).people[id] == Aged(s.people[id], 1)
  {
    var departed := ProcessDeparture(s, i);
    assert Active(departed.ships[i]);
    assert id in departed.people;
  }

  /**
   A resident who boards loses one more hour in the same turn: the ship's
   `passHour` runs right after boarding. Together with the global aging and
   the planet's `passHour` earlier in the tick, a boarder listed once
   everywhere loses three hours on the departure tick.
   */
  lemma BoardersAgeAboard(s: Sim, i: nat, id: PersonId)
    requires WellFormed(s) && i < |s.ships|
    requires DepartureFires(s, i)
    requires var k := s.planetMap[s.ships[i].departurePlanet];
      var boarders := WithTag(s.planets[k].population, s.people, s.ships[i].name);
      id in boarders && multiset(s.ships[i].passengers + boarders)[id] == 1
    ensures id in s.people
    ensures ShipStep(s, i).people[id].lifeRemaining == s.people[id].lifeRemaining - 1
  {
    BoardThenFly(s, i, id);
    var flown := ShipHour(ProcessDeparture(s, i), i);
    ArrivalKeepsLife(flown, i, id);
  }

  /**
   Arrival does not look at `destroyed`: an active ship on its last hour
   whose passengers all die in that hour is destroyed and arrived at once.
   */
  lemma DestroyedAndArrived(s: Sim, i: nat)
    requires WellFormed(s) && i < |s.ships|
    requires Active(s.ships[i]) && s.ships[i].remainingTravelTime <= 1
    requires |s.ships[i].passengers| > 0
    requires forall id <- s.ships[i].passengers :: s.people[id].lifeRemaining <= 1
    requires s.ships[i].destinationPlanet in s.planetMap
    ensures ShipStep(s, i).ships[i].destroyed && ShipStep(s, i).ships[i].arrived
  {
    var departed := ProcessDeparture(s, i);
    assert departed == s;
    PassHourLosesEveryone(s.ships[i], s.people);
    var flown := ShipHour(departed, i);
    assert ArrivalFires(flown, i);
  }

  /**
   Departure does not look at `arrived`: an arrived ship whose departure date
   shows again leaves again, in transit and arrived at once, with its old
   passengers still aboard and the newly tagged residents behind them.
   */
  lemma ArrivedShipDepartsAgain(s: Sim, i: nat)
    requires WellFormed(s) && i < |s.ships|
    requires s.ships[i].arrived
    requires DepartureFires(s, i)
    ensures var r := ProcessDeparture(s, i);
      var k := s.planetMap[s.ships[i].departurePlanet];
      && r.ships[i].inTransit && r.ships[i].arrived
      && r.ships[i].passengers
         == s.ships[i].passengers + WithTag(s.planets[k].population, s.people, s.ships[i].name)
  {
  }

  /**
   An arrival leaves every passenger both aboard and among the destination's
   residents.
   */
  lemma ArrivalLeavesPassengersAboard(s: Sim, i: nat, id: PersonId)
    requires WellFormed(s) && i < |s.ships|
    requires ArrivalFires(s, i)
    requires id in s.ships[i].passengers
    ensures var r := ProcessArrival(s, i);
      && id in r.ships[i].passengers
      && id in r.planets[s.planetMap[s.ships[i].destinationPlanet]].population
      && r.people[id].location == s.ships[i].destinationPlanet
  {
  }

  /**
   Landing again: an arrived ship whose departure date shows again leaves with
   its old passengers still aboard and, when it has at most one hour to go,
   lands them a second time. A passenger already living at the destination
   is then listed there once more.
   */
  lemma ReLandingListsTwice(s: Sim, i: nat, id: PersonId)
    requires WellFormed(s) && i < |s.ships|
    requires DepartureFires(s, i)
    requires s.ships[i].remainingTravelTime <= 1
    requires s.ships[i].destinationPlanet in s.planetMap
    requires s.ships[i].destinationPlanet != s.ships[i].departurePlanet
    requires var k := s.planetMap[s.ships[i].departurePlanet];
      var boarders := WithTag(s.planets[k].population, s.people, s.ships[i].name);
      id in s.ships[i].passengers && multiset(s.ships[i].passengers + boarders)[id] == 1
    requires id in s.people && s.people[id].lifeRemaining > 1
    ensures var d := s.planetMap[s.ships[i].destinationPlanet];
      multiset(ShipStep(s, i).planets[d].population)[id] == multiset(s.planets[d].population)[id] + 1
  {
    var k := s.planetMap[s.ships[i].departurePlanet];
    var d := s.planetMap[s.ships[i].destinationPlanet];
    var departed := ProcessDeparture(s, i);
    assert departed.planets[d] == s.planets[d];
    var aboard := departed.ships[i].passengers;
    assert Active(departed.ships[i]);
    Spaceships.PassHourKeepsSurvivor(departed.ships[i], departed.people, id);
    var flown := ShipHour(departed, i);
    var kept := flown.ships[i].passengers;
    var once: multiset<PersonId> := multiset(kept);
    assert once <= multiset(aboard);
    assert id in once;
    assert once[id] == 1;
    assert ArrivalFires(flown, i);
    var r := ProcessArrival(flown, i);
    assert r.planets[d].population == s.planets[d].population + kept;
  }

  // ---------------------------------------------------------------------------
  // Planets before ships

  /** No planet lists a person twice, and no person lives on two planets. */
  predicate ResidentsDistinct(planets: seq<Planet>)
  {
    && (forall k | 0 <= k < |planets| :: Distinct(planets[k].population))
    && (forall j, k, id | 0 <= j < k < |planets| && id in planets[j].population ::
          id !in planets[k].population)
  }

  /** Everybody listed on a planet is alive. */
  predicate ResidentsAlive(s: Sim, upTo: nat)
    requires WellFormed(s)
  {
    forall k, id | 0 <= k < upTo && k < |s.planets| && id in s.planets[k].population :: IsAlive(s.people[id])
  }

  /** One planet's hour keeps the residents of every planet alive and apart. */
  lemma PlanetHourKeepsInvariant(s: Sim, k: nat)
    requires WellFormed(s) && k < |s.planets|
    requires ResidentsDistinct(s.planets)
    requires ResidentsAlive(s, k)
    ensures ResidentsDistinct(PlanetHour(s, k).planets)
    ensures ResidentsAlive(PlanetHour(s, k), k + 1)
  {
    var stepped := PlanetHour(s, k);
    var before := s.planets[k].population;
    var after := stepped.planets[k].population;
    PassHourResidents(s.planets[k], s.people);
    forall j | 0 <= j < |stepped.planets|
      ensures Distinct(stepped.planets[j].population)
    {
      if j != k {
        assert stepped.planets[j] == s.planets[j];
      }
    }
    forall j, m, id | 0 <= j < m < |stepped.planets| && id in stepped.planets[j].population
      ensures id !in stepped.planets[m].population
    {
      if j == k {
        assert id in before;
        assert stepped.planets[m] == s.planets[m];
      } else if m == k {
        assert stepped.planets[j] == s.planets[j];
        assert id !in before;
      } else {
        assert stepped.planets[j] == s.planets[j];
        assert stepped.planets[m] == s.planets[m];
      }
    }
    forall j, id | 0 <= j < k + 1 && j < |stepped.planets| && id in stepped.planets[j].population
      ensures IsAlive(stepped.people[id])
    {
      if j < k {
        assert stepped.planets[j] == s.planets[j];
        assert id !in before;
        assert stepped.people[id] == s.people[id];
      }
    }
  }

  /** The planets already visited by `updatePlanetStatus` hold only living residents, all apart. */
  predicate SweptClean(s: Sim, k: nat)
    requires WellFormed(s)
  {
    ResidentsDistinct(s.planets) && ResidentsAlive(s, k)
  }

  /** One more turn of `updatePlanetStatus` keeps the visited planets clean. */
  lemma SweepTurn(s: Sim, n: nat)
    requires WellFormed(s) && n < |s.planets|
    requires SweptClean(UpdatePlanetsUpTo(s, n), n)
    ensures SweptClean(UpdatePlanetsUpTo(s, n + 1), n + 1)
  {
    PlanetHourKeepsInvariant(UpdatePlanetsUpTo(s, n), n);
  }

  /**
   The first `k` turns of `updatePlanetStatus` keep residents apart and leave
   only living residents on the planets they have visited.
   */
  lemma {:induction false} SweepLeavesOnlyLiving(s: Sim, k: nat)
    requires WellFormed(s) && k <= |s.planets|
    requires ResidentsDistinct(s.planets)
    ensures SweptClean(UpdatePlanetsUpTo(s, k), k)
    decreases k
  {
    if k > 0 {
      var n: nat := k - 1;
      SweepLeavesOnlyLiving(s, n);
      SweepTurn(s, n);
    }
  }

  /** From a state whose planets hold only the living, a departure boards only the living. */
  lemma BoardersAlive(u: Sim, i: nat)
    requires WellFormed(u) && i < |u.ships|
    requires SweptClean(u, |u.planets|)
    requires DepartureFires(u, i)
    ensures var k := u.planetMap[u.ships[i].departurePlanet];
      var boarders := WithTag(u.planets[k].population, u.people, u.ships[i].name);
      && ProcessDeparture(u, i).ships[i].passengers == u.ships[i].passengers + boarders
      && forall id <- boarders :: IsAlive(u.people[id])
  {
    var k := u.planetMap[u.ships[i].departurePlanet];
    var pop := u.planets[k].population;
    TagFiltersPartition(pop, u.people, u.ships[i].name);
    forall id <- WithTag(pop, u.people, u.ships[i].name)
      ensures IsAlive(u.people[id])
    {
      assert id in multiset(pop);
    }
  }

  /**
   After the planet step nobody dead is left on a planet, so the departures
   that follow board only the living.
   */
  lemma DeadCannotBoard(s: Sim, i: nat)
    requires WellFormed(s) && i < |s.ships|
    requires ResidentsDistinct(s.planets)
    ensures var u := UpdatePlanets(AgeEveryone(s));
      DepartureFires(u, i) ==>
        var k := u.planetMap[u.ships[i].departurePlanet];
        var boarders := WithTag(u.planets[k].population, u.people, u.ships[i].name);
        && ProcessDeparture(u, i).ships[i].passengers == u.ships[i].passengers + boarders
        && forall id <- boarders :: IsAlive(u.people[id])
  {
    var a := AgeEveryone(s);
    SweepLeavesOnlyLiving(a, |a.planets|);
    var u := UpdatePlanets(a);
    if DepartureFires(u, i) {
      BoardersAlive(u, i);
    }
  }
}

=== FILE: wrappers.dfy ===
/** The optional value used where the Java code returns or stores `null`. */
module Wrappers {

  datatype Option<+T> = None | Some(value: T)

}
